=== FILE: README.md ===
# ANSI-to-HTML converter of the CircleCI colour extension, in Dafny

The browser extension recolours CircleCI terminal output. Its core is
`AnsiToHtml.convert` (ansi-to-html.js). It turns text carrying ANSI SGR escape
sequences (ECMA-48, section 8.3.117 "SGR") into an HTML fragment. The content
script first runs `hasAnsiCodes` (content.js) to decide whether a block needs
converting at all.

This project models both as pure functions over `seq<char>`. It proves what the
code guarantees about the markup it produces:
- which characters survive;
- which style each character is shown in;
- how the wrappers nest;
- when skipping a block is safe.

Modules, following the structure of `convert`:

- `TextPass` (text_pass.dfy) is the rewrite pass that `String.prototype.replace`
  with a global regular expression performs. It is one left-to-right,
  non-overlapping scan. `Matches` says declaratively which strings are whole
  matches of each of the patterns, `MatchLen` finds the match at the front, and
  `Apply` is the pass. The pass is specified by a tiling of the input into
  matches and kept characters. `Apply` is proved to compute the output of that
  tiling, and the tiling exists and is unique.
- `Normalizer` (normalize.dfy) holds the three `replace` calls at
  ansi-to-html.js:46-50:
  - unescaping `#x1B[` / `#x1b[`;
  - deleting cursor and erase sequences;
  - deleting mode sequences.
- `Colors` (colors.dfy) holds the two colour tables.
- `SgrState` (sgr_state.dfy) holds the style record and the left-to-right fold of
  SGR codes into it.
- `SgrParams` (sgr_params.dfy) turns parameter text into codes:
  `split(';')` and `parseInt(c, 10) || 0`. That covers JavaScript white space,
  a sign, and the longest run of digits.
- `Markup` (markup.dfy) holds the output tokens (`Open(style)`, `Close`,
  `Lit(c)`) and their rendering. That is the `<font color=… style="display:contents;…">`
  wrapper and the escaping of `&`, `<` and `>`. It also holds two readers used
  as partners:
  - `TextOf` strips tags and resolves entities;
  - `DecodeOpenTag` parses a wrapper back into a style.
- `Emitter` (emitter.dfy) is the main loop. `Step` is one iteration and `Run` is
  the loop plus the final close, producing tokens. `Convert` is the whole
  function. `ConvertByScan` is the index-based loop as written, with its inner
  search for `m`, proved equal to `Convert`.
- `Detect` (detect.dfy) is `hasAnsiCodes` and the soundness of the skip it
  drives.
- `Optional` (optional.dfy) is the option type used for the colours of a style and by the decoder, and `Seqs`
  (seqs.dfy) holds three small facts about sequence concatenation and slicing.

Text is a sequence of `char`s, which are Unicode scalar values: a text stands
for the scalar values of a well-formed UTF-16 string. A character outside the
Basic Multilingual Plane is one `char` here where JavaScript sees two code
units. Every character the code inspects (ESC, `[`, digits, `;`, `m`, `#`,
`&`, `<`, `>` and ECMAScript white space) lies in that plane and is never half
of a surrogate pair, so splitting or joining a pair changes no output.

## Model

| member | source | states |
|---|---|---|
| TextPass.Apply | ansi-to-html.js:46-50 | One global `replace`: a single left-to-right scan that replaces each match and copies every other character; it never lengthens the text. `ApplyIsLeftmostRewrite`, `TilingIsLeftmost` and `TilingIsUnique` pin it to the leftmost tiling of the input. |
| TextPass.MatchLen | ansi-to-html.js:46-50 | The length of the match of a pattern at the front of a string. A positive length is a whole match, and no other prefix of the string matches, so the regular expressions here never have two candidate matches at one position. |
| TextPass.SgrMatchShape | ansi-to-html.js:59-66 | A sequence the loop consumes starts with ESC `[`, ends with the first `m` after that, and has no `m` in between. |
| TextPass.MatchLenFindsMatch | ansi-to-html.js:46-50 | The scanner reports a match exactly when some prefix of the input is a whole match, in both directions. |
| TextPass.ApplyIsLeftmostRewrite | ansi-to-html.js:46-50 | For any tiling of the input into whole matches and single kept characters, where no match starts at a kept character, the pass outputs the replacements of the matches and the kept characters, in order. |
| TextPass.ConsPiece | ansi-to-html.js:46-50 | A match, or a kept character where no match starts, put in front of a leftmost tiling gives a leftmost tiling of the longer text. |
| TextPass.TilingIsLeftmost | ansi-to-html.js:46-50 | Every input has such a leftmost tiling, and it covers exactly the input. |
| TextPass.TilingIsUnique | ansi-to-html.js:46-50 | Two leftmost tilings of the same input are equal, so the pass output is fully determined by that specification. |
| TextPass.ApplyWithoutMatches | ansi-to-html.js:46-50 | A pass over text where no match starts anywhere returns the text unchanged. |
| Normalizer.Unescape | ansi-to-html.js:46 | `#x1B[` and `#x1b[` become ESC `[`, and the text never grows. `UnescapeLeavesNoIntroducer` and `UnescapeIsIdempotent` state what it achieves. |
| Normalizer.StripCursorControls | ansi-to-html.js:49 | Removes every ESC `[` digits-and-semicolons sequence ending in `A`-`H`, `J`, `K`, `S`, `T`, `f`, `n`, `s` or `u`; the text never grows. `CursorControlVanishes` and `StripCanExposeControl` state what it does. |
| Normalizer.StripModeControls | ansi-to-html.js:50 | Removes every such sequence ending in `l` or `h`; the text never grows. `ModeControlVanishes` states what it does. |
| Normalizer.Normalize | ansi-to-html.js:45-50 | The three passes in the order `convert` runs them; the text never grows. `NormalizeKeepsUndetected`, `CursorControlVanishes` and `PrivateModeSurvives` state what it keeps and drops. |
| Normalizer.UnescapeLeavesNoIntroducer | ansi-to-html.js:46 | After unescaping, neither `#x1B[` nor `#x1b[` occurs anywhere in the text. The pass cannot create a new one across a replacement. |
| Normalizer.UnescapeIsIdempotent | ansi-to-html.js:46 | Unescaping twice gives the same text as unescaping once. |
| Normalizer.KeptPrefix | ansi-to-html.js:46 | An ESC-free prefix of the unescaped text is also a prefix of the input. Nothing ESC-free is produced by rewriting. |
| Normalizer.StripCanExposeControl | ansi-to-html.js:49 | The cursor pass is a single scan. Removing `ESC[A` from `ESC ESC[A[A` joins the first ESC with `[A` into a new cursor sequence, and that one is left in the output. |
| Normalizer.UnescapeHashFree | ansi-to-html.js:46 | Text without `#` passes through unescaping unchanged, also when more text follows. |
| Normalizer.ApplyKeepsFront | ansi-to-html.js:46-50 | A pass copies a front part where no match starts, then continues with the rest. |
| Normalizer.ControlAtFront | ansi-to-html.js:49-50 | A whole control sequence at the front is removed by the pass for its final byte, and the pass continues after it. |
| Normalizer.CursorControlVanishes | ansi-to-html.js:45-50 | A cursor or erase sequence such as `ESC[2J` in front of any text disappears under normalization. |
| Normalizer.ModeControlVanishes | ansi-to-html.js:45-50 | A mode sequence such as `ESC[4l` survives the cursor pass and disappears in the mode pass. |
| Normalizer.NoControlMatchInPrivate | ansi-to-html.js:49-50 | No cursor or mode pattern matches anywhere inside ESC `[` followed by text that holds no ESC and starts with neither a digit, `;` nor a final byte. |
| Normalizer.PrivateModeSurvives | ansi-to-html.js:45-50 | A sequence whose parameter text holds no ESC and no `#` and starts with a character such as `?` (neither a digit, `;` nor a final byte) is kept by normalization, which goes on after it: the patterns only allow digits and `;` as parameters. |
| Normalizer.HideCursorSurvives | ansi-to-html.js:45-50 | `ESC[?25l` in front of any text passes normalization untouched. |
| Colors.ForegroundTableShape | ansi-to-html.js:9-14 | The foreground table has exactly the codes 30-37 and 90-97 that the range tests admit, so the lookups at lines 92 and 94 are always defined. Every entry is `#` and six hex digits. |
| Colors.BackgroundTableShape | ansi-to-html.js:15-20 | The background table has exactly the codes 40-47 and 100-107 tested at lines 97 and 99. Every entry is a hex colour. |
| Colors.BackgroundMirrorsForeground | ansi-to-html.js:9-20 | A code is a background code exactly when it minus 10 is a foreground code, and `bgColors[c+10] == colors[c]` for every foreground code `c`. |
| SgrState.HasStyle | ansi-to-html.js:112 | `hasStyle`: true exactly when some attribute is present, a colour or one of the four flags, as a non-empty key set of `currentStyle`. |
| SgrState.ApplyCode | ansi-to-html.js:80-103 | 0 resets everything. 1-4 set only their own flag. Table codes set only their own colour to the table entry. 39 and 49 unset only their colour. Every other code leaves the state as it was. Hex colours stay hex. |
| SgrState.Fold | ansi-to-html.js:79-104 | Folding a code list over a style with hex colours leaves hex colours. |
| SgrState.FoldAppend | ansi-to-html.js:79-104 | Folding a concatenation is folding the first list and then the second, so the codes apply strictly left to right. |
| SgrState.FoldFromLastReset | ansi-to-html.js:79-82 | Only the codes after the last 0 matter, applied to the empty style. Nothing from before the reset survives. |
| SgrState.FoldFlagsWithoutReset | ansi-to-html.js:83-90 | Without a 0 in the list, a flag ends up set if and only if it was set before or its code occurs. |
| SgrState.FoldColorUntouched | ansi-to-html.js:91-102 | A colour that no code of the list can affect keeps its value. |
| SgrState.FoldColorLastWord | ansi-to-html.js:91-102 | A colour is decided by the last code that affects it: its table entry, or unset for 0, 39 and 49. |
| SgrState.SingleCode | ansi-to-html.js:79-104 | Folding a one-code list is applying that code. |
| SgrState.ForegroundCode | ansi-to-html.js:91-94 | A code in 30-37 or 90-97 has a table entry and sets only the foreground, to that entry. |
| SgrState.ResetThenSetExample | ansi-to-html.js:79-104 | The codes 0, 32, 1 give the foreground `#4e9a06` and bold, whatever the style was before. |
| SgrParams.SplitFields | ansi-to-html.js:74 | Splitting yields one more field than there are semicolons, and no field contains `;`. |
| SgrParams.JoinSplit | ansi-to-html.js:74 | Joining the fields of a split with `;` gives back the parameter text. |
| SgrParams.SplitJoin | ansi-to-html.js:74 | Splitting semicolon-free fields joined with `;` gives back the fields. |
| SgrParams.Codes | ansi-to-html.js:74 | A parameter text gives one code per field, that is one more than it has semicolons. |
| SgrParams.ParseField | ansi-to-html.js:74 | `parseInt(c, 10)` with NaN and -0 turned into 0: the leading integer after JavaScript white space and one optional sign, else 0; a field without any digit gives 0. `ParseDigits`, `ParseSigned`, `SignWithoutDigits` and `ParseSkipsSpace` state the integer reading for every spelling, leading zeros and `+` included. |
| SgrParams.DecimalValue | ansi-to-html.js:74 | The decimal spelling of a number reads back as that number. |
| SgrParams.ParseDecimal | ansi-to-html.js:74 | A field that is a decimal number, possibly followed by a non-digit as in `5x`, parses to that number. |
| SgrParams.ParseSkipsSpace | ansi-to-html.js:74 | Leading JavaScript white space does not change the parsed value. |
| SgrParams.ParseNegative | ansi-to-html.js:74 | A minus sign negates the value. `-5` is the code -5, which the fold ignores, not the code 0. |
| SgrParams.ParseDigits | ansi-to-html.js:74 | Any run of digits followed by a non-digit or the end parses to the number it denotes, leading zeros included (`01` is 1). |
| SgrParams.ParseSigned | ansi-to-html.js:74 | A `-` or `+` in front of a run of digits followed by a non-digit gives the negated or plain value (`-5x` is -5, `+31` is 31). |
| SgrParams.SignApplies | ansi-to-html.js:74 | A `-` in front of text that starts with a digit negates its value and a `+` keeps it. |
| SgrParams.SignWithoutDigits | ansi-to-html.js:74 | A sign not followed by a digit gives 0, whatever comes later (`-x5` is 0). |
| SgrParams.CodesOfDigitRuns | ansi-to-html.js:74 | Runs of digits joined with `;` give the values of the runs in order, leading zeros and empty fields (code 0) included. |
| SgrParams.LeadingZeroCodes | ansi-to-html.js:74 | The parameter text `01;31` gives the codes 1 and 31. |
| SgrParams.CodesOfDecimals | ansi-to-html.js:74 | A list of numbers spelled in decimal and joined with `;` parses back to that list. |
| SgrParams.CodesOfDecimal | ansi-to-html.js:74 | A single number in decimal is the one-element code list holding that number. |
| SgrParams.CodesOfNonNumber | ansi-to-html.js:74 | A parameter text without `;` that starts with neither space, sign nor digit is the single code 0. |
| Markup.ColorAttribute | ansi-to-html.js:117 | ` color="…"` with the foreground, empty exactly when no foreground is set. |
| Markup.StyleDeclaration | ansi-to-html.js:119-124 | `display:contents;`, then the background, bold, dim, italic and underline rules for the attributes set; `DecodeOpenTagRoundTrip` reads it back. |
| Markup.OpenTag | ansi-to-html.js:126 | The `<font…>` wrapper; `OpenTagShape` shows it is `<`, a body without `>`, then `>`, and `DecodeOpenTagRoundTrip` reads the style back from it. |
| Markup.RenderToken | ansi-to-html.js:126-143 | The markup of one token, never empty: the wrapper, `</font>`, or the escaped character. |
| Markup.Render | ansi-to-html.js:115-151 | The output string, at least one character per token; `TextOfRender` reads the literal text back from it. |
| Markup.EscapeChar | ansi-to-html.js:133-143 | An escaped character never contains `<` or `>`. Characters other than `&`, `<` and `>` are copied unchanged. |
| Markup.TextOfEscaped | ansi-to-html.js:133-143 | Reading back an escaped character gives that character, whatever follows. |
| Markup.EscapeTextRoundTrip | ansi-to-html.js:133-143 | Stripping tags and resolving entities in escaped text gives back the text exactly, whitespace included. Escaped text contains no `<` or `>`. |
| Markup.NoMarkupInLiterals | ansi-to-html.js:133-143 | Markup made only of literal characters contains no `<` and no `>`. |
| Markup.OpenTagShape | ansi-to-html.js:117-126 | An opening wrapper is `<`, text without `>`, then `>`, so a reader finds its end at the first `>`. |
| Markup.TextOfRender | ansi-to-html.js:115-151 | Stripping the tags and resolving entities in rendered tokens gives exactly their literal characters, in order. |
| Markup.DecodeOpenTagRoundTrip | ansi-to-html.js:115-126 | Every wrapper parses back to the style it was rendered from. The parse expects `color="…"` exactly when a foreground is set, `display:contents;` first, then background, bold, dim, italic and underline in that order, each at most once. |
| Emitter.Run | ansi-to-html.js:57-151 | The whole loop and the final close, as a token list. `RunIsWellFormed`, `LiteralsOfRun` and `RunShowsStyles` state its nesting, its text and the style of each character. |
| Emitter.Convert | ansi-to-html.js:44-153 | `convert`: normalize, run the loop, render. `ConvertKeepsText`, `ConvertShowsStyles` and `ConvertByScan` state what it returns. |
| Emitter.Step | ansi-to-html.js:57-146 | One iteration consumes at least one character. It keeps the invariant that a wrapper is open only while a style is set, and it keeps hex colours hex. |
| Emitter.RunIsWellFormed | ansi-to-html.js:57-151 | The token stream is balanced and never nested, and it ends closed, so a wrapper open at the end is closed. Every wrapper carries a non-empty style and is immediately followed by a literal character. |
| Emitter.ConvertSeesThroughEscaping | ansi-to-html.js:45-50 | Converting text whose introducers are already real ESC `[` gives the same markup as converting the escaped spelling. |
| Emitter.StepText | ansi-to-html.js:57-146 | One iteration writes nothing for an SGR sequence and exactly the current character otherwise. |
| Emitter.LiteralsOfRun | ansi-to-html.js:57-151 | The literal characters emitted are the scanned text with every consumed ESC `[`…`m` sequence cut out, and nothing else changed. |
| Emitter.ConvertKeepsText | ansi-to-html.js:44-153 | Stripping tags from `convert`'s output and resolving `&amp;`, `&lt;`, `&gt;` gives the normalized input with the SGR sequences removed. |
| Emitter.RunShowsStyles | ansi-to-html.js:57-151 | Each character is shown inside a wrapper with exactly the style that folding all earlier SGR sequences yields, or outside any wrapper when that style is empty. This is checked against a reference definition over the leftmost tiling. |
| Emitter.ConvertShowsStyles | ansi-to-html.js:44-153 | The same for `convert` on any input, starting from no style. |
| Emitter.DisplayedStep | ansi-to-html.js:57-146 | One iteration displays nothing for an SGR sequence, and otherwise displays exactly the current character in the current style. |
| Emitter.After | ansi-to-html.js:57-146 | Running the loop any number of iterations from a state keeps the wrapper invariant and never lengthens the unread text. |
| Emitter.StaleCloseIsDead | ansi-to-html.js:127-131 | In no state the loop reaches is there a literal character with no style set while a wrapper is open, so the closing branch never runs. |
| Emitter.UnterminatedIsText | ansi-to-html.js:59-66 | Without any `m` ahead, an ESC `[` and everything after it is written as literal text. |
| Emitter.RedCode | ansi-to-html.js:74-94 | The parameter text `31` sets the foreground to the table entry for 31 (`#cc0000`) and nothing else. |
| Emitter.ResetThenSetText | ansi-to-html.js:74-94 | The parameter text `0;32;1` gives the foreground `#4e9a06` plus bold, whatever was set before: the leading reset does not cancel the codes after it. |
| Emitter.RedTextExample | ansi-to-html.js:57-151 | `ESC[31m` followed by any two characters gives one wrapper with the table's red around both, closed at the end. |
| Emitter.SequenceAtFront | ansi-to-html.js:59-108 | A whole SGR sequence at the front, with no wrapper open, emits nothing; the rest converts under the style its codes select. |
| Emitter.WrappedPair | ansi-to-html.js:110-151 | Two characters under a non-empty style, with no wrapper open, share one wrapper that is closed at the end. |
| Emitter.PrivateModeSwallowsText | ansi-to-html.js:59-108 | A parameter text such as `?25l…` up to the next `m` reads as the single code 0. The sequence and everything it swallowed vanish, and the rest converts as if alone. |
| Emitter.SgrOnlyYieldsNothing | ansi-to-html.js:112-131 | Text made only of SGR sequences, scanned with no wrapper open, produces no tokens, so `convert` returns the empty string. |
| Emitter.RunOfPlainText | ansi-to-html.js:57-146 | Text with no SGR sequence, scanned from the start, produces exactly its characters as literals, with no wrapper. |
| Emitter.SgrAt | ansi-to-html.js:59-74 | Where the inner search finds its `m`, the scanner reports a sequence of exactly that length, whose codes (`SequenceCodes`, the `slice(i + 2, j)` parameters of ansi-to-html.js:74 read by `Codes`) are those of the text between `[` and `m`. |
| Emitter.NoSgrAt | ansi-to-html.js:59-66 | A position without ESC `[`, or with no `m` later, is not the start of a sequence. |
| Emitter.FoldCodes | ansi-to-html.js:79-104 | The `for … of` loop over the codes computes the fold of the whole list. |
| Emitter.SgrStepAt | ansi-to-html.js:66-108 | A sequence from ESC to `m` closes an open wrapper, folds its codes into the style, and leaves no wrapper open. |
| Emitter.CharStepAt | ansi-to-html.js:111-145 | A literal character opens a wrapper first when a style is set and none is open, closes one when no style is set and one is open, and is then written. |
| Emitter.FindSequence | ansi-to-html.js:58-64 | The test at the top of the loop reports the closing `m` of a sequence starting at the index, or reports that no sequence starts there. |
| Emitter.FindFinalM | ansi-to-html.js:61-64 | The inner search stops at the first `m` at or after its start, or at the end of the text. |
| Emitter.Lead | ansi-to-html.js:112-131 | The wrapper change before a literal: empty exactly when `hasStyle` already agrees with `inSpan`, and an opening wrapper exactly when a style is set and none is open. |
| Emitter.EmitLead | ansi-to-html.js:112-131 | Before a literal character the output gains the opening wrapper when a style is set and none is open, `</font>` when none is set and one is open, and nothing otherwise; afterwards a wrapper is open exactly when a style is set. |
| Emitter.CharRun | ansi-to-html.js:112-145 | A character that starts no sequence is scanned as the wrapper change before it, then the character, then the rest with a wrapper open exactly when a style is set. |
| Emitter.EmitChar | ansi-to-html.js:112-145 | The statements for a literal character append the wrapper change and then the character with `&`, `<` and `>` escaped, and this is exactly the markup of the tokens `Run` produces for it. |
| Emitter.EmitSequence | ansi-to-html.js:66-107 | The statements for a consumed sequence append `</font>` exactly when a wrapper is open, set the style to the fold of the sequence's codes, and this is exactly the markup `Run` produces for it. |
| Emitter.ScanStep | ansi-to-html.js:57-146 | One turn of the loop advances the index and appends exactly the markup `Run` produces for the stretch it consumed. |
| Emitter.ConvertByScan | ansi-to-html.js:44-153 | The index-based loop with its inner search, string appends and final close returns exactly `Convert(text)`. |
| Detect.IncludesFrom | content.js:19 | Scanning from index `i` finds the pattern exactly when it occurs at some index at or after `i`. |
| Detect.Includes | content.js:19 | `includes` is true exactly when the pattern occurs somewhere in the text. |
| Detect.HasAnsiCodes | content.js:17-29 | The result is true if and only if the text contains `#x1B[`, contains `#x1b[`, or has a real ESC immediately followed by `[`. |
| Detect.TrailingEscapeDoesNotCount | content.js:23-28 | A lone ESC at the very end of an undetected text does not make it detected: the loop stops one position before the end. |
| Detect.NoEscapedIntroducer | content.js:19-21 | In undetected text no match of the unescaping pattern starts anywhere. |
| Detect.NoSequenceAnywhere | content.js:23-26 | In text with no ESC `[`, no control or SGR sequence starts anywhere. |
| Detect.NormalizeKeepsUndetected | ansi-to-html.js:45-50 | Undetected text passes through all three normalization passes unchanged. |
| Detect.SkipIsSound | content.js:42-45 | For every text the detector rejects, `convert` would produce only the HTML-escaped text with no wrapper, so skipping conversion loses nothing. |

## Left out

- The DOM work of content.js (`querySelectorAll`, `textContent`, `innerHTML`, `classList`, the `WeakSet` of processed elements, `console.log`) is host-object I/O with no algorithmic content. The model takes the text and returns the markup.
- `MutationObserver` and the `setTimeout` debounce in content.js are event-driven scheduling; `convert` is a pure function of its argument.
- `buildStyleString` (ansi-to-html.js:27-39) is never called by `convert`; the wrapper the code actually emits is modelled instead.
- The regular-expression engine is replaced by the explicit scanners in `TextPass`. The three expressions are simple enough that each match is unique at a position (`MatchLen`), so leftmost-first matching and greedy repetition agree.
- `parseInt` turning very long digit strings into floating-point values: the model reads them as exact integers. Rounding cannot bring such a value into any range the fold acts on, so the resulting style is the same.
- Lone surrogates: a JavaScript string, such as a DOM `textContent`, can hold an unpaired surrogate code unit, and the code copies it through. A Dafny `char` cannot hold a surrogate value, so such text cannot be represented.
- Behaviour of the code that may surprise a reader, modelled as the code has it:
  - The output can contain control characters. An ESC `[` with no later `m`, or an ESC not followed by `[`, is written as literal text (`UnterminatedIsText`). The single-pass strip can also leave a newly exposed control sequence behind (`StripCanExposeControl`).
  - A field is its leading integer, so `5x` is 5 and `-5` is -5, not 0.
  - The wrapper is a `<font>` element.
  - A sequence such as `ESC[?25l` is not stripped (`PrivateModeSurvives`), and the search for `m` swallows the text up to the next `m` (`PrivateModeSwallowsText`).
  - The close-before-character branch is unreachable (`StaleCloseIsDead`).
- Emitter.PrivateModeSwallowsText is stated for parameter text without `;` whose first character is not space, sign or digit. Other swallowed text is covered by the general `Step` and `Run` definitions rather than by a separate lemma.

=== FILE: colors.dfy ===
/**
 The two colour tables of the converter (ansi-to-html.js:9-20): SGR code to
 hexadecimal colour, one table for the foreground codes 30-37 and 90-97 and
 one for the background codes 40-47 and 100-107.
 */
module Colors {

  const Foreground: map<int, string> := map[
    30 := "#000000", 31 := "#cc0000", 32 := "#4e9a06", 33 := "#c4a000",
    34 := "#3465a4", 35 := "#75507b", 36 := "#06989a", 37 := "#d3d7cf",
    90 := "#555753", 91 := "#ef2929", 92 := "#8ae234", 93 := "#fce94f",
    94 := "#729fcf", 95 := "#ad7fa8", 96 := "#34e2e2", 97 := "#eeeeec"
  ]

  const Background: map<int, string> := map[
    40 := "#000000", 41 := "#cc0000", 42 := "#4e9a06", 43 := "#c4a000",
    44 := "#3465a4", 45 := "#75507b", 46 := "#06989a", 47 := "#d3d7cf",
    100 := "#555753", 101 := "#ef2929", 102 := "#8ae234", 103 := "#fce94f",
    104 := "#729fcf", 105 := "#ad7fa8", 106 := "#34e2e2", 107 := "#eeeeec"
  ]

  /** The ranges `convert` tests before reading the foreground table (ansi-to-html.js:91, 93). */
  predicate IsForegroundCode(code: int) {
    30 <= code <= 37 || 90 <= code <= 97
  }

  /** The ranges `convert` tests before reading the background table (ansi-to-html.js:97, 99). */
  predicate IsBackgroundCode(code: int) {
    40 <= code <= 47 || 100 <= code <= 107
  }

  predicate IsHexDigit(c: char) {
    '0' <= c <= '9' || 'a' <= c <= 'f' || 'A' <= c <= 'F'
  }

  /** `#` followed by six hexadecimal digits. */
  predicate IsHexColor(v: string) {
    |v| == 7 && v[0] == '#' && forall k :: 1 <= k < 7 ==> IsHexDigit(v[k])
  }

  /**
   The foreground table has exactly the codes the range tests admit, so the
   lookup in `convert` never yields `undefined`, and every entry is a hex colour.
   */
  lemma ForegroundTableShape()
    ensures forall code :: code in Foreground <==> IsForegroundCode(code)
    ensures forall code :: code in Foreground ==> IsHexColor(Foreground[code])
  {
  }

  /** The same for the background table. */
  lemma BackgroundTableShape()
    ensures forall code :: code in Background <==> IsBackgroundCode(code)
    ensures forall code :: code in Background ==> IsHexColor(Background[code])
  {
  }

  /** A background code is its foreground code plus 10, and both name the same colour. */
  lemma BackgroundMirrorsForeground()
    ensures forall code :: IsBackgroundCode(code) <==> IsForegroundCode(code - 10)
    ensures forall code :: code in Foreground ==> code + 10 in Background && Background[code + 10] == Foreground[code]
  {
  }
}

=== FILE: detect.dfy ===
/**
 The test the content script makes before it converts anything
 (content.js:17-29): a block of terminal output is handed to `convert` only
 when it holds the escaped introducer `#x1B[` or `#x1b[`, or a real ESC
 immediately followed by `[`. Blocks that fail the test are left untouched
 (content.js:42-45); `SkipIsSound` shows that converting them would have
 produced nothing but their escaped text.
 */
module Detect {
  import opened TextPass
  import opened Normalizer
  import opened Markup
  import opened Emitter

  /** `pat` occurs in `s` starting at index `i`. */
  predicate OccursAt(s: string, pat: string, i: int) {
    0 <= i && i + |pat| <= |s| && s[i..i + |pat|] == pat
  }

  /** The scan behind `s.includes(pat)`, started at index `i`. */
  function IncludesFrom(s: string, pat: string, i: nat): (r: bool)
    requires i <= |s|
    ensures r <==> exists k :: i <= k && OccursAt(s, pat, k)
    decreases |s| - i
  {
    if i + |pat| > |s| then false
    else if s[i..i + |pat|] == pat then
      assert OccursAt(s, pat, i);
      true
    else IncludesFrom(s, pat, i + 1)
  }

  /** `s.includes(pat)`: true exactly when `pat` occurs somewhere in `s`. */
  function Includes(s: string, pat: string): (r: bool)
    ensures r <==> exists k :: OccursAt(s, pat, k)
  {
    IncludesFrom(s, pat, 0)
  }

  /** A real ESC at index `i` with `[` right after it. */
  predicate EscBracketAt(text: string, i: int) {
    0 <= i < |text| - 1 && text[i] == ESC && text[i + 1] == '['
  }

  /** What `hasAnsiCodes` looks for: either spelling of the escaped introducer, or a real ESC `[`. */
  ghost predicate ContainsIntroducer(text: string) {
    || (exists i :: OccursAt(text, "#x1B[", i))
    || (exists i :: OccursAt(text, "#x1b[", i))
    || (exists i :: EscBracketAt(text, i))
  }

  /** `hasAnsiCodes` (content.js:17-29): the two `includes` tests, then the scan for ESC `[`. */
  method HasAnsiCodes(text: string) returns (r: bool)
    ensures r <==> ContainsIntroducer(text)
  {
    if Includes(text, "#x1B[") || Includes(text, "#x1b[") {
      return true;
    }
    var i := 0;
    while i < |text| - 1
      invariant 0 <= i && (i == 0 || i < |text|)
      invariant forall k :: 0 <= k < i ==> !EscBracketAt(text, k)
    {
      if text[i] as int == 27 && text[i + 1] == '[' {
        assert EscBracketAt(text, i);
        return true;
      }
      i := i + 1;
    }
    return false;
  }

  /** An ESC as the very last character is not an introducer: the scan stops one short of the end. */
  lemma TrailingEscapeDoesNotCount(t: string)
    requires !ContainsIntroducer(t)
    ensures !ContainsIntroducer(t + [ESC])
  {
    var u := t + [ESC];
    forall i
      ensures !OccursAt(u, "#x1B[", i) && !OccursAt(u, "#x1b[", i)
    {
      NotBeforeTrailingEscape(t, "#x1B[", i);
      NotBeforeTrailingEscape(t, "#x1b[", i);
    }
    forall i
      ensures !EscBracketAt(u, i)
    {
      if 0 <= i < |u| - 1 {
        if i + 1 < |t| {
          assert u[i] == t[i] && u[i + 1] == t[i + 1];
          assert !EscBracketAt(t, i);
        } else {
          assert u[i + 1] == ESC;
        }
      }
    }
  }

  /** A pattern ending in `[` that `t` lacks does not turn up once an ESC is appended. */
  lemma NotBeforeTrailingEscape(t: string, pat: string, i: int)
    requires |pat| > 0 && pat[|pat| - 1] == '['
    requires !OccursAt(t, pat, i)
    ensures !OccursAt(t + [ESC], pat, i)
  {
    var u := t + [ESC];
    if 0 <= i && i + |pat| <= |u| {
      if i + |pat| <= |t| {
        assert u[i..i + |pat|] == t[i..i + |pat|];
      } else {
        assert u[i..i + |pat|][|pat| - 1] == ESC;
      }
    }
  }

  /** No match of the escaped-introducer pattern starts anywhere in text that lacks both spellings. */
  lemma NoEscapedIntroducer(text: string)
    requires !ContainsIntroducer(text)
    ensures forall i :: 0 <= i < |text| ==> MatchLen(EscapedIntroducer, text[i..]) == 0
  {
    forall i | 0 <= i < |text|
      ensures MatchLen(EscapedIntroducer, text[i..]) == 0
    {
      if |text[i..]| >= 5 {
        assert text[i..][..5] == text[i..i + 5];
        assert !OccursAt(text, "#x1B[", i) && !OccursAt(text, "#x1b[", i);
      }
    }
  }

  /** Control sequences and SGR sequences all start with ESC `[`. */
  lemma StartsWithEscBracket(p: Pattern, s: string)
    requires p != EscapedIntroducer
    ensures MatchLen(p, s) > 0 ==> |s| >= 2 && s[0] == ESC && s[1] == '['
  {
  }

  /** Without ESC `[` in the text, no sequence pattern matches anywhere. */
  lemma NoSequenceAnywhere(p: Pattern, text: string)
    requires p != EscapedIntroducer
    requires forall i :: !EscBracketAt(text, i)
    ensures forall i :: 0 <= i < |text| ==> MatchLen(p, text[i..]) == 0
  {
    forall i | 0 <= i < |text|
      ensures MatchLen(p, text[i..]) == 0
    {
      StartsWithEscBracket(p, text[i..]);
      assert !EscBracketAt(text, i);
      if |text[i..]| >= 2 {
        assert text[i..][0] == text[i] && text[i..][1] == text[i + 1];
      }
    }
  }

  /** Text the detector rejects passes through all three normalizer passes unchanged. */
  lemma NormalizeKeepsUndetected(text: string)
    requires !ContainsIntroducer(text)
    ensures Normalize(text) == text
  {
    NoEscapedIntroducer(text);
    ApplyWithoutMatches(EscapedIntroducer, text);
    NoSequenceAnywhere(ControlSequence(CursorFinals), text);
    ApplyWithoutMatches(ControlSequence(CursorFinals), text);
    NoSequenceAnywhere(ControlSequence(ModeFinals), text);
    ApplyWithoutMatches(ControlSequence(ModeFinals), text);
  }

  /**
   Skipping is safe (content.js:42-45): for every text the detector rejects,
   `convert` would only have escaped it, with no `<font>` wrapper anywhere.
   */
  lemma SkipIsSound(text: string)
    requires !ContainsIntroducer(text)
    ensures Convert(text) == EscapeText(text)
  {
    NormalizeKeepsUndetected(text);
    NoSequenceAnywhere(SgrSequence, text);
    RunOfPlainText(text);
  }
}

=== FILE: emitter.dfy ===
/**
 The main loop of `convert` (ansi-to-html.js:52-153). A `Scanner` holds what
 the loop keeps between iterations: the unread text, `currentStyle` and
 `inSpan`. `Step` is one iteration, `Run` the whole loop plus the final close,
 and the result is a list of tokens that `Markup.Render` spells out.

 Three partners pin the emitter down: the token stream is well nested and
 every wrapper carries a style and encloses text (`RunIsWellFormed`); the
 literal characters are exactly the text with the SGR sequences cut out
 (`LiteralsOfRun`); and every character is displayed inside a wrapper of the
 style that the SGR sequences before it select (`RunShowsStyles`), as
 computed by a reference definition over the leftmost tiling of the text.
 */
module Emitter {
  import opened Optional
  import opened TextPass
  import opened SgrParams
  import opened SgrState
  import opened Markup
  import opened Normalizer
  import opened Seqs
  import opened Colors

  /** The loop state: unread text, `currentStyle`, `inSpan`. */
  datatype Scanner = Scanner(rest: string, style: Style, open: bool)

  /** The state before the first iteration: no style, no wrapper. */
  function Start(text: string): Scanner {
    Scanner(text, Plain, false)
  }

  /** What one iteration writes and the state it leaves. */
  datatype Stepped = Stepped(out: seq<Token>, next: Scanner)

  /** A wrapper is open only while some attribute is set. */
  predicate WrapperInvariant(s: Scanner) {
    s.open ==> HasStyle(s.style)
  }

  /** The parameter codes of a whole sequence ESC `[` … `m` (ansi-to-html.js:74). */
  function SequenceCodes(t: string): seq<int> {
    if |t| >= 3 then Codes(t[2..|t| - 1]) else []
  }

  /**
   One iteration of the loop (ansi-to-html.js:57-146): an SGR sequence closes
   the wrapper and updates the style; any other character opens a wrapper if a
   style is set and none is open, closes it if none is set and one is open,
   and is written escaped.
   */
  function Step(s: Scanner): (r: Stepped)
    requires s.rest != []
    ensures |r.next.rest| < |s.rest|
    ensures WrapperInvariant(s) ==> WrapperInvariant(r.next)
    ensures ValidStyle(s.style) ==> ValidStyle(r.next.style)
  {
    var n := MatchLen(SgrSequence, s.rest);
    if n > 0 then
      Stepped((if s.open then [Close] else []),
              Scanner(s.rest[n..], Fold(s.style, SequenceCodes(s.rest[..n])), false))
    else
      var c := s.rest[0];
      var hasStyle := HasStyle(s.style);
      if hasStyle && !s.open then
        Stepped([Open(s.style), Lit(c)], Scanner(s.rest[1..], s.style, true))
      else if !hasStyle && s.open then
        Stepped([Close, Lit(c)], Scanner(s.rest[1..], s.style, false))
      else
        Stepped([Lit(c)], Scanner(s.rest[1..], s.style, s.open))
  }

  /** Wrappers alternate with closes, never nest, and the stream ends closed. */
  predicate WellNested(ts: seq<Token>, open: bool) {
    if ts == [] then !open
    else match ts[0]
      case Open(_) => !open && WellNested(ts[1..], true)
      case Close => open && WellNested(ts[1..], false)
      case Lit(_) => WellNested(ts[1..], open)
  }

  /** Every wrapper carries some attribute and is followed by a character. */
  predicate WrapsText(ts: seq<Token>) {
    forall k :: 0 <= k < |ts| && ts[k].Open? ==>
      HasStyle(ts[k].style) && k + 1 < |ts| && ts[k + 1].Lit?
  }

  /** Every wrapper's colours are hex colours. */
  predicate ValidWrappers(ts: seq<Token>) {
    forall k :: 0 <= k < |ts| && ts[k].Open? ==> ValidStyle(ts[k].style)
  }

  lemma StepNests(s: Scanner, tail: seq<Token>)
    requires s.rest != []
    requires WellNested(tail, Step(s).next.open)
    ensures WellNested(Step(s).out + tail, s.open)
  {
    var out := Step(s).out;
    if |out| == 2 {
      assert (out + tail)[1..] == [out[1]] + tail;
      assert ([out[1]] + tail)[1..] == tail;
    } else if |out| == 1 {
      assert (out + tail)[1..] == tail;
    } else {
      assert out + tail == tail;
    }
  }

  lemma StepWraps(s: Scanner, tail: seq<Token>)
    requires s.rest != []
    requires WrapsText(tail)
    requires ValidStyle(s.style) ==> ValidWrappers(tail)
    ensures WrapsText(Step(s).out + tail)
    ensures ValidStyle(s.style) ==> ValidWrappers(Step(s).out + tail)
  {
    var out := Step(s).out;
    if MatchLen(SgrSequence, s.rest) > 0 {
      assert forall k :: 0 <= k < |out| ==> !out[k].Open?;
    } else if HasStyle(s.style) && !s.open {
      assert out == [Open(s.style), Lit(s.rest[0])];
    } else {
      assert forall k :: 0 <= k < |out| ==> !out[k].Open?;
    }
    PrefixWraps(out, tail);
    if ValidStyle(s.style) {
      PrefixValid(out, tail);
    }
  }

  /** Tokens put in front of a stream that wraps text keep it wrapping text, when they wrap text themselves. */
  lemma PrefixWraps(out: seq<Token>, tail: seq<Token>)
    requires WrapsText(tail)
    requires forall k :: 0 <= k < |out| && out[k].Open? ==> HasStyle(out[k].style) && k + 1 < |out| && out[k + 1].Lit?
    ensures WrapsText(out + tail)
  {
    forall k | 0 <= k < |out + tail| && (out + tail)[k].Open?
      ensures HasStyle((out + tail)[k].style) && k + 1 < |out + tail| && (out + tail)[k + 1].Lit?
    {
      if k >= |out| {
        assert (out + tail)[k] == tail[k - |out|];
        assert (out + tail)[k + 1] == tail[k + 1 - |out|];
      }
    }
  }

  /** The same for hex colours in wrappers. */
  lemma PrefixValid(out: seq<Token>, tail: seq<Token>)
    requires ValidWrappers(tail) && ValidWrappers(out)
    ensures ValidWrappers(out + tail)
  {
    forall k | 0 <= k < |out + tail| && (out + tail)[k].Open?
      ensures ValidStyle((out + tail)[k].style)
    {
      if k >= |out| {
        assert (out + tail)[k] == tail[k - |out|];
      }
    }
  }

  /** The whole loop and the final close (ansi-to-html.js:57-151). */
  function Run(s: Scanner): seq<Token>
    decreases |s.rest|
  {
    if s.rest == [] then
      if s.open then [Close] else []
    else
      var r := Step(s);
      var tail := Run(r.next);
      r.out + tail
  }

  /**
   From any state, the emitted tokens are well nested starting from the
   state's `inSpan`, every wrapper holds a style and some text, and hex
   colours stay hex.
   */
  lemma {:induction false} RunIsWellFormed(s: Scanner)
    ensures WellNested(Run(s), s.open)
    ensures WrapsText(Run(s))
    ensures ValidStyle(s.style) ==> ValidWrappers(Run(s))
    decreases |s.rest|
  {
    if s.rest != [] {
      var r := Step(s);
      RunIsWellFormed(r.next);
      StepNests(s, Run(r.next));
      StepWraps(s, Run(r.next));
    }
  }

  /** What `convert` returns for `text` (ansi-to-html.js:41-153). */
  function Convert(text: string): string {
    Render(Run(Start(Normalize(text))))
  }

  /**
   The escaped spelling `#x1B[` is as good as a real ESC `[`: converting the
   text with every introducer already written as ESC `[` gives the same markup.
   */
  lemma ConvertSeesThroughEscaping(text: string)
    ensures Convert(Unescape(text)) == Convert(text)
  {
    UnescapeIsIdempotent(text);
  }

  // ----- The visible text -----

  /** The characters one iteration writes, and where it leaves the scan. */
  lemma StepText(s: Scanner)
    requires s.rest != []
    ensures var n := MatchLen(SgrSequence, s.rest);
      && Literals(Step(s).out) == (if n > 0 then [] else [s.rest[0]])
      && Step(s).next.rest == (if n > 0 then s.rest[n..] else s.rest[1..])
  {
    var n := MatchLen(SgrSequence, s.rest);
    var c := s.rest[0];
    assert Literals([Close]) == [] by { assert [Close][1..] == []; }
    assert Literals([Lit(c)]) == [c] by { assert [Lit(c)][1..] == []; }
    assert Literals([Open(s.style), Lit(c)]) == [c] by { assert [Open(s.style), Lit(c)][1..] == [Lit(c)]; }
    assert Literals([Close, Lit(c)]) == [c] by { assert [Close, Lit(c)][1..] == [Lit(c)]; }
  }

  /** The characters of the output are the text with every SGR sequence cut out. */
  lemma {:induction false} LiteralsOfRun(s: Scanner)
    ensures Literals(Run(s)) == Apply(SgrSequence, s.rest)
    decreases |s.rest|
  {
    if s.rest == [] {
      assert Literals([Close]) == [];
    } else {
      var r := Step(s);
      StepText(s);
      LiteralsOfRun(r.next);
      RenderAppend(r.out, Run(r.next));
      assert Run(s) == r.out + Run(r.next);
    }
  }

  /**
   Removing the tags from the output of `convert` and resolving its entities
   gives the normalized input with every SGR sequence deleted.
   */
  lemma ConvertKeepsText(text: string)
    ensures TextOf(Convert(text)) == Apply(SgrSequence, Normalize(text))
  {
    var ts := Run(Start(Normalize(text)));
    RunIsWellFormed(Start(Normalize(text)));
    TextOfRender(ts);
    LiteralsOfRun(Start(Normalize(text)));
  }

  // ----- The styles on display -----

  /** The characters of the markup with the style of the wrapper around each (`Plain` outside). */
  function Displayed(ts: seq<Token>, cur: Style): seq<(char, Style)> {
    if ts == [] then []
    else match ts[0]
      case Open(st) => Displayed(ts[1..], st)
      case Close => Displayed(ts[1..], Plain)
      case Lit(c) => [(c, cur)] + Displayed(ts[1..], cur)
  }

  /**
   Reference definition over a tiling of the text into SGR sequences and
   single characters: each character with the style that folding every
   earlier sequence's codes, starting from `st`, yields.
   */
  function Styled(ps: seq<Piece>, st: Style): seq<(char, Style)> {
    if ps == [] then []
    else match ps[0]
      case Hit(t) => Styled(ps[1..], Fold(st, SequenceCodes(t)))
      case Keep(c) => [(c, st)] + Styled(ps[1..], st)
  }

  /**
   Every character is shown in a wrapper of exactly the style in effect at its
   position, and characters with no style in effect in none.
   */
  lemma {:induction false} RunShowsStyles(s: Scanner, ps: seq<Piece>)
    requires WrapperInvariant(s)
    requires LeftmostTiling(SgrSequence, ps) && Joined(ps) == s.rest
    ensures Displayed(Run(s), if s.open then s.style else Plain) == Styled(ps, s.style)
    decreases |ps|
  {
    NonEmptyTiling(SgrSequence, ps);
    if ps != [] {
      FirstPiece(SgrSequence, ps);
      LeftmostTilingTail(SgrSequence, ps);
      var r := Step(s);
      RunShowsStyles(r.next, ps[1..]);
      DisplayedStep(s, Run(r.next));
    }
  }

  /** What one iteration adds to the displayed characters, and the style it leaves in effect. */
  lemma DisplayedStep(s: Scanner, tail: seq<Token>)
    requires s.rest != [] && WrapperInvariant(s)
    ensures var r := Step(s);
      Displayed(r.out + tail, if s.open then s.style else Plain)
      == (if MatchLen(SgrSequence, s.rest) > 0 then [] else [(s.rest[0], s.style)])
         + Displayed(tail, if r.next.open then r.next.style else Plain)
  {
    if MatchLen(SgrSequence, s.rest) > 0 {
      DisplayedAfterClose(s.open, tail);
    } else if HasStyle(s.style) && !s.open {
      DisplayedLiteral([Open(s.style)], s.rest[0], tail, Plain, s.style);
    } else {
      DisplayedLiteral([], s.rest[0], tail, s.style, s.style);
    }
  }

  /** A consumed sequence shows nothing and leaves no style on display. */
  lemma DisplayedAfterClose(open: bool, tail: seq<Token>)
    ensures open ==> Displayed([Close] + tail, Plain) == Displayed(tail, Plain)
    ensures !open ==> Displayed([] + tail, Plain) == Displayed(tail, Plain)
  {
    assert ([Close] + tail)[1..] == tail;
    assert [] + tail == tail;
  }

  /** A literal, after at most one opening wrapper, shows its character in the wrapper's style. */
  lemma DisplayedLiteral(pre: seq<Token>, c: char, tail: seq<Token>, cur: Style, st: Style)
    requires pre == [] ==> cur == st
    requires pre != [] ==> pre == [Open(st)]
    ensures Displayed(pre + [Lit(c)] + tail, cur) == [(c, st)] + Displayed(tail, st)
  {
    var u := [Lit(c)] + tail;
    assert u[1..] == tail;
    if pre == [] {
      assert pre + [Lit(c)] + tail == u;
    } else {
      assert (pre + [Lit(c)] + tail)[1..] == u;
    }
  }

  /** The styles `convert` displays are those of the reference definition on the normalized input. */
  lemma ConvertShowsStyles(text: string)
    ensures Displayed(Run(Start(Normalize(text))), Plain) == Styled(Tiling(SgrSequence, Normalize(text)), Plain)
  {
    TilingIsLeftmost(SgrSequence, Normalize(text));
    RunShowsStyles(Start(Normalize(text)), Tiling(SgrSequence, Normalize(text)));
  }

  // ----- Reachable states -----

  /** The state after `k` iterations, or the final state when the text runs out first. */
  function After(s: Scanner, k: nat): (r: Scanner)
    ensures WrapperInvariant(s) ==> WrapperInvariant(r)
    ensures |r.rest| <= |s.rest|
    decreases k
  {
    if k == 0 || s.rest == [] then s else After(Step(s).next, k - 1)
  }

  /**
   The branch of ansi-to-html.js:127-130, which closes a wrapper before a
   character when no style is set, never runs: no state the loop reaches from
   the start has a wrapper open without a style.
   */
  lemma StaleCloseIsDead(text: string, k: nat)
    ensures var s := After(Start(text), k);
      !(s.rest != [] && MatchLen(SgrSequence, s.rest) == 0 && !HasStyle(s.style) && s.open)
  {
  }

  // ----- Examples -----

  /** A sequence without a closing `m` is not a sequence: ESC and the rest are written as text. */
  lemma UnterminatedIsText(s: Scanner)
    requires 'm' !in s.rest
    ensures Literals(Run(s)) == s.rest
  {
    LiteralsOfRun(s);
    forall i | 0 <= i < |s.rest|
      ensures MatchLen(SgrSequence, s.rest[i..]) == 0
    {
      var u := s.rest[i..];
      SgrMatchShape(u);
      assert forall k :: 0 <= k < |u| ==> u[k] == s.rest[i + k];
    }
    ApplyWithoutMatches(SgrSequence, s.rest);
  }

  /** The parameter text `31` selects the red foreground and nothing else. */
  lemma RedCode()
    ensures Fold(Plain, Codes("31")) == Plain.(fg := Some(Foreground[31]))
  {
    assert "31" == Decimal(31);
    CodesOfDecimal(31);
    SingleCode(Plain, 31);
    ForegroundCode(Plain, 31);
  }

  /** The parameter text `0;32;1` gives the green foreground and bold, whatever was set before. */
  lemma ResetThenSetText(st: Style)
    ensures Fold(st, Codes("0;32;1")) == Style(Some("#4e9a06"), None, true, false, false, false)
  {
    var ns: seq<nat> := [0, 32, 1];
    var fs := seq(|ns|, i requires 0 <= i < |ns| => Decimal(ns[i]));
    assert Decimal(0) == "0" && Decimal(1) == "1" && Decimal(3) == "3";
    assert Decimal(32) == Decimal(3) + "2" == "32";
    assert fs[0] == "0" && fs[1] == "32" && fs[2] == "1";
    assert fs == ["0", "32", "1"];
    assert fs[1..] == ["32", "1"] && fs[1..][1..] == ["1"];
    assert JoinFields(fs[1..][1..]) == "1";
    assert JoinFields(fs[1..]) == "32" + ";" + "1";
    assert JoinFields(fs) == "0;32;1";
    CodesOfDecimals(ns);
    ResetThenSetExample(st);
  }

  /** `ESC[31m` and two characters: one wrapper in the colour of code 31 around both, closed at the end. */
  lemma RedTextExample(a: char, b: char)
    ensures Run(Start([ESC, '[', '3', '1', 'm', a, b]))
      == [Open(Plain.(fg := Some(Foreground[31]))), Lit(a), Lit(b), Close]
  {
    var t: string := [ESC, '[', '3', '1', 'm', a, b];
    assert t == [ESC, '['] + "31" + ['m'] + [a, b];
    SequenceAtFront("31", [a, b], Plain);
    RedCode();
    WrappedPair(a, b, Plain.(fg := Some(Foreground[31])));
  }

  /**
   A whole sequence at the front, with no wrapper open, emits nothing and
   leaves the rest to be scanned under the folded style.
   */
  lemma SequenceAtFront(params: string, rest: string, st: Style)
    requires 'm' !in params
    ensures Run(Scanner([ESC, '['] + params + ['m'] + rest, st, false))
      == Run(Scanner(rest, Fold(st, Codes(params)), false))
  {
    var t := [ESC, '['] + params + ['m'] + rest;
    var j := |params| + 2;
    SequenceLayout(t, params, rest);
    SgrStepAt(t, 0, j, st, false);
  }

  /** Where the parts of ESC `[` params `m` rest sit. */
  lemma SequenceLayout(t: string, params: string, rest: string)
    requires 'm' !in params
    requires t == [ESC, '['] + params + ['m'] + rest
    ensures |params| + 2 < |t| && t[0] == ESC && t[1] == '[' && t[|params| + 2] == 'm'
    ensures t[2..|params| + 2] == params && t[0..] == t && t[|params| + 3..] == rest
    ensures forall k :: 2 <= k < |params| + 2 ==> t[k] != 'm'
  {
    var w := [ESC, '['] + params;
    Associate(w, ['m'], rest);
    assert t[..|w|] == w;
    assert w[2..] == params;
    assert t[2..|w|] == w[2..];
    assert forall k :: 2 <= k < |w| ==> t[k] == params[k - 2];
    assert t[|w| + 1..] == rest;
  }

  /** Two characters under a style, with no wrapper open yet, share one wrapper. */
  lemma WrappedPair(a: char, b: char, st: Style)
    requires HasStyle(st)
    ensures Run(Scanner([a, b], st, false)) == [Open(st), Lit(a), Lit(b), Close]
  {
    var t := [a, b];
    NoSgrAt(t, 0);
    CharStepAt(t, 0, st, false);
    NoSgrAt(t, 1);
    CharStepAt(t, 1, st, true);
    assert t[0..] == t && t[2..] == [];
  }

  /**
   A private-mode sequence such as `ESC[?25l` survives both stripping passes
   (`Normalizer.PrivateModeSurvives`).
   The scan for `m` then takes everything up to the next `m` as parameter
   text, which parses to the single code 0, so the sequence and the text it
   swallowed vanish and the style is reset.
   */
  lemma PrivateModeSwallowsText(p: string, rest: string)
    requires p != [] && 'm' !in p && ';' !in p
    requires !IsJsSpace(p[0]) && p[0] != '-' && p[0] != '+' && !IsDigit(p[0])
    ensures Run(Start([ESC, '['] + p + ['m'] + rest)) == Run(Start(rest))
  {
    CodesOfNonNumber(p);
    assert Fold(Plain, [0]) == Plain by { assert [0][1..] == []; }
    SequenceAtFront(p, rest, Plain);
  }

  /** Text made only of SGR sequences gives no tokens at all, so `convert` returns "". */
  lemma {:induction false} SgrOnlyYieldsNothing(s: Scanner)
    requires !s.open && Apply(SgrSequence, s.rest) == []
    ensures Run(s) == []
    decreases |s.rest|
  {
    if s.rest != [] {
      var n := MatchLen(SgrSequence, s.rest);
      assert n > 0;
      SgrOnlyYieldsNothing(Step(s).next);
    }
  }

  /** Text with no SGR sequence, scanned with no style set, is exactly its characters as literals. */
  lemma {:induction false} RunOfPlainText(t: string)
    requires forall i :: 0 <= i < |t| ==> MatchLen(SgrSequence, t[i..]) == 0
    ensures Run(Start(t)) == LitTokens(t)
    decreases |t|
  {
    if t != [] {
      assert t[0..] == t;
      assert forall i :: 0 <= i < |t| - 1 ==> t[1..][i..] == t[i + 1..];
      RunOfPlainText(t[1..]);
      assert LitTokens(t) == [Lit(t[0])] + LitTokens(t[1..]);
    }
  }

  // ----- The loop as written -----

  lemma SgrAt(t: string, i: nat, j: nat)
    requires i + 2 <= j < |t| && t[i] == ESC && t[i + 1] == '[' && t[j] == 'm'
    requires forall k :: i + 2 <= k < j ==> t[k] != 'm'
    ensures MatchLen(SgrSequence, t[i..]) == j - i + 1
    ensures t[i..][j - i + 1..] == t[j + 1..]
    ensures SequenceCodes(t[i..][..j - i + 1]) == Codes(t[i + 2..j])
  {
    var u := t[i..];
    var n := j - i + 1;
    assert u[0] == ESC && u[1] == '[' && u[n - 1] == 'm';
    forall k | 2 <= k < n - 1
      ensures u[k] != 'm'
    {
      assert u[k] == t[i + k];
    }
    SgrMatchAt(u, n);
    assert u[..n][2..n - 1] == t[i + 2..j];
  }

  lemma NoSgrAt(t: string, i: nat)
    requires i < |t|
    requires !(t[i] == ESC && i + 1 < |t| && t[i + 1] == '[') || forall k :: i + 2 <= k < |t| ==> t[k] != 'm'
    ensures MatchLen(SgrSequence, t[i..]) == 0
  {
    var u := t[i..];
    assert forall k :: 0 <= k < |u| ==> u[k] == t[i + k];
    SgrMatchShape(u);
  }

  /** The loop over the codes of one sequence (ansi-to-html.js:79-104). */
  method FoldCodes(st: Style, codes: seq<int>) returns (r: Style)
    ensures r == Fold(st, codes)
  {
    r := st;
    var k := 0;
    while k < |codes|
      invariant 0 <= k <= |codes|
      invariant Fold(st, codes) == Fold(r, codes[k..])
    {
      assert codes[k..] == [codes[k]] + codes[k + 1..];
      r := ApplyCode(r, codes[k]);
      k := k + 1;
    }
    assert codes[k..] == [];
  }

  /** An SGR sequence from `i` to `j` closes the wrapper and folds its codes. */
  lemma SgrStepAt(t: string, i: nat, j: nat, style: Style, open: bool)
    requires i + 2 <= j < |t| && t[i] == ESC && t[i + 1] == '[' && t[j] == 'm'
    requires forall k :: i + 2 <= k < j ==> t[k] != 'm'
    ensures var next := Run(Scanner(t[j + 1..], Fold(style, Codes(t[i + 2..j])), false));
      && (open ==> Run(Scanner(t[i..], style, open)) == [Close] + next)
      && (!open ==> Run(Scanner(t[i..], style, open)) == next)
  {
    SgrAt(t, i, j);
    var s := Scanner(t[i..], style, open);
    var next := Scanner(t[j + 1..], Fold(style, Codes(t[i + 2..j])), false);
    assert Step(s) == Stepped((if open then [Close] else []), next);
    assert Run(s) == Step(s).out + Run(Step(s).next);
    AppendEmpty(Run(next));
  }

  /** Any other character is written escaped, after opening or closing a wrapper as needed. */
  lemma CharStepAt(t: string, i: nat, style: Style, open: bool)
    requires i < |t| && MatchLen(SgrSequence, t[i..]) == 0
    ensures HasStyle(style) && !open ==>
      Run(Scanner(t[i..], style, open)) == [Open(style)] + ([Lit(t[i])] + Run(Scanner(t[i + 1..], style, true)))
    ensures !HasStyle(style) && open ==>
      Run(Scanner(t[i..], style, open)) == [Close] + ([Lit(t[i])] + Run(Scanner(t[i + 1..], style, false)))
    ensures HasStyle(style) == open ==>
      Run(Scanner(t[i..], style, open)) == [Lit(t[i])] + Run(Scanner(t[i + 1..], style, open))
  {
    assert t[i..][1..] == t[i + 1..];
    var c := t[i];
    assert [Open(style), Lit(c)] == [Open(style)] + [Lit(c)];
    assert [Close, Lit(c)] == [Close] + [Lit(c)];
    Associate([Open(style)], [Lit(c)], Run(Scanner(t[i + 1..], style, true)));
    Associate([Close], [Lit(c)], Run(Scanner(t[i + 1..], style, false)));
  }

  lemma RenderOne(x: Token)
    ensures Render([x]) == RenderToken(x)
  {
    assert [x][1..] == [];
  }

  /** Appending one token's markup to the output rendered so far. */
  lemma RenderSnoc(ts: seq<Token>, x: Token)
    ensures Render(ts + [x]) == Render(ts) + RenderToken(x)
  {
    RenderAppend(ts, [x]);
    RenderOne(x);
  }

  /** The inner search for the `m` that ends a sequence (ansi-to-html.js:60-63). */
  method FindFinalM(t: string, from: nat) returns (j: nat)
    requires from <= |t|
    ensures from <= j <= |t|
    ensures forall k :: from <= k < j ==> t[k] != 'm'
    ensures j < |t| ==> t[j] == 'm'
  {
    j := from;
    while j < |t| && t[j] != 'm'
      invariant from <= j <= |t|
      invariant forall k :: from <= k < j ==> t[k] != 'm'
    {
      j := j + 1;
    }
  }

  /**
   The test at the top of the loop (ansi-to-html.js:58-63): the index of the
   `m` that ends an SGR sequence starting at `i`, or `i` itself when none
   starts there.
   */
  method FindSequence(t: string, i: nat) returns (j: nat)
    requires i < |t|
    ensures j == i || (i + 2 <= j < |t| && t[i] == ESC && t[i + 1] == '[' && t[j] == 'm')
    ensures j > i ==> forall k :: i + 2 <= k < j ==> t[k] != 'm'
    ensures j == i ==> MatchLen(SgrSequence, t[i..]) == 0
  {
    j := i;
    if t[i] == ESC && i + 1 < |t| && t[i + 1] == '[' {
      j := FindFinalM(t, i + 2);
      if j == |t| {
        j := i;
      }
    }
    if j == i {
      NoSgrAt(t, i);
    }
  }

  /** `result += …` for the markup of one token. */
  method AppendToken(html: string, ghost ts: seq<Token>, x: Token) returns (html': string, ghost ts': seq<Token>)
    requires html == Render(ts)
    ensures html' == html + RenderToken(x)
    ensures html' == Render(ts') && ts' == ts + [x]
  {
    RenderSnoc(ts, x);
    html' := html + RenderToken(x);
    ts' := ts + [x];
  }

  /** The wrapper change before a literal character: open one, close one, or nothing. */
  function Lead(style: Style, open: bool): (r: seq<Token>)
    ensures r == [] <==> HasStyle(style) == open
    ensures HasStyle(style) && !open <==> r == [Open(style)]
  {
    if HasStyle(style) && !open then [Open(style)]
    else if !HasStyle(style) && open then [Close]
    else []
  }

  /** The scan of a character that starts no sequence, in terms of `Lead`. */
  lemma CharRun(t: string, i: nat, style: Style, open: bool)
    requires i < |t| && MatchLen(SgrSequence, t[i..]) == 0
    ensures Run(Scanner(t[i..], style, open))
      == Lead(style, open) + ([Lit(t[i])] + Run(Scanner(t[i + 1..], style, HasStyle(style))))
  {
    CharStepAt(t, i, style, open);
    if HasStyle(style) == open {
      AppendEmpty([Lit(t[i])] + Run(Scanner(t[i + 1..], style, open)));
    }
  }

  /**
   The wrapper handling before a literal character (ansi-to-html.js:110-131):
   afterwards a wrapper is open exactly when a style is set.
   */
  method EmitLead(style: Style, open: bool, html: string, ghost ts: seq<Token>)
    returns (html': string, open': bool, ghost ts': seq<Token>)
    requires html == Render(ts)
    ensures open' == HasStyle(style)
    ensures html' == html
      + (if HasStyle(style) && !open then OpenTag(style) else if !HasStyle(style) && open then CloseTag else "")
    ensures html' == Render(ts') && ts' == ts + Lead(style, open)
  {
    var hasStyle := HasStyle(style);
    if hasStyle && !open {
      html', ts' := AppendToken(html, ts, Open(style));
      open' := true;
    } else if !hasStyle && open {
      html', ts' := AppendToken(html, ts, Close);
      open' := false;
    } else {
      html', ts' := html, ts;
      open' := open;
      AppendEmpty(html);
      AppendEmpty(ts);
    }
  }

  /**
   One character outside a sequence (ansi-to-html.js:110-145): the output
   grows by exactly the markup of the tokens the emitter produces for it.
   */
  method EmitChar(t: string, i: nat, style: Style, open: bool, html: string, ghost ts: seq<Token>)
    returns (html': string, open': bool, ghost ts': seq<Token>)
    requires i < |t| && MatchLen(SgrSequence, t[i..]) == 0
    requires html == Render(ts)
    ensures open' == HasStyle(style)
    ensures html' == html
      + (if HasStyle(style) && !open then OpenTag(style) else if !HasStyle(style) && open then CloseTag else "")
      + EscapeChar(t[i])
    ensures html' == Render(ts')
    ensures ts' + Run(Scanner(t[i + 1..], style, open')) == ts + Run(Scanner(t[i..], style, open))
  {
    ghost var mid;
    html', open', mid := EmitLead(style, open, html, ts);
    html', ts' := AppendToken(html', mid, Lit(t[i]));
    ghost var rest := Run(Scanner(t[i + 1..], style, open'));
    CharRun(t, i, style, open);
    Associate(mid, [Lit(t[i])], rest);
    Associate(ts, Lead(style, open), [Lit(t[i])] + rest);
  }

  /**
   One whole SGR sequence from `i` to `j` (ansi-to-html.js:64-108): close the
   wrapper, then fold the codes into the style.
   */
  method EmitSequence(t: string, i: nat, j: nat, style: Style, open: bool, html: string, ghost ts: seq<Token>)
    returns (html': string, style': Style, ghost ts': seq<Token>)
    requires i + 2 <= j < |t| && t[i] == ESC && t[i + 1] == '[' && t[j] == 'm'
    requires forall k :: i + 2 <= k < j ==> t[k] != 'm'
    requires html == Render(ts)
    ensures style' == Fold(style, Codes(t[i + 2..j]))
    ensures html' == html + (if open then CloseTag else "")
    ensures html' == Render(ts')
    ensures ts' + Run(Scanner(t[j + 1..], style', false)) == ts + Run(Scanner(t[i..], style, open))
  {
    SgrStepAt(t, i, j, style, open);
    style' := FoldCodes(style, Codes(t[i + 2..j]));
    if open {
      html', ts' := AppendToken(html, ts, Close);
      Associate(ts, [Close], Run(Scanner(t[j + 1..], style', false)));
    } else {
      html', ts' := html, ts;
    }
  }

  /**
   One turn of the while loop (ansi-to-html.js:57-146): either a whole SGR
   sequence or a single character; the output grows by the markup of the
   tokens the emitter produces for that stretch of text.
   */
  method ScanStep(t: string, i: nat, style: Style, open: bool, html: string, ghost ts: seq<Token>)
    returns (i': nat, style': Style, open': bool, html': string, ghost ts': seq<Token>)
    requires i < |t|
    requires html == Render(ts)
    ensures i < i' <= |t|
    ensures html' == Render(ts')
    ensures ts' + Run(Scanner(t[i'..], style', open')) == ts + Run(Scanner(t[i..], style, open))
  {
    var j := FindSequence(t, i);
    if j > i {
      html', style', ts' := EmitSequence(t, i, j, style, open, html, ts);
      open' := false;
      i' := j + 1;
      assert ts' + Run(Scanner(t[i'..], style', open')) == ts + Run(Scanner(t[i..], style, open));
    } else {
      html', open', ts' := EmitChar(t, i, style, open, html, ts);
      style' := style;
      i' := i + 1;
      assert ts' + Run(Scanner(t[i'..], style', open')) == ts + Run(Scanner(t[i..], style, open));
    }
  }

  /**
   `convert` as the while loop it is written as, with index arithmetic; the
   tokens written so far are kept alongside the output string.
   */
  method ConvertByScan(text: string) returns (html: string)
    ensures html == Convert(text)
  {
    var t := Normalize(text);
    html := "";
    ghost var ts: seq<Token> := [];
    ghost var total := Run(Start(t));
    var i := 0;
    var style := Plain;
    var open := false;
    assert t[0..] == t;
    AppendEmpty(total);
    while i < |t|
      invariant 0 <= i <= |t|
      invariant html == Render(ts)
      invariant ts + Run(Scanner(t[i..], style, open)) == total
      decreases |t| - i
    {
      i, style, open, html, ts := ScanStep(t, i, style, open, html, ts);
    }
    assert t[|t|..] == [];
    if open {
      html, ts := AppendToken(html, ts, Close);
    } else {
      AppendEmpty(ts);
    }
  }
}

=== FILE: markup.dfy ===
/**
 The markup `convert` writes (ansi-to-html.js:114-151): a `<font>` wrapper
 whose `color` attribute carries the foreground and whose `style` attribute
 starts with `display:contents;` and then lists background, bold, dim, italic
 and underline in that order; a closing `</font>`; and literal characters with
 `&`, `<` and `>` replaced by entities.

 The emitter produces a list of tokens and `Render` spells them out. Two
 readers of rendered text serve as the partners of the writer:
 `DecodeOpenTag` reads a wrapper back into a style, and `TextOf` removes the
 tags and resolves the three entities, giving back the literal text.
 */
module Markup {
  import opened Optional
  import opened Colors
  import opened SgrState
  import opened Seqs

  datatype Token = Open(style: Style) | Close | Lit(c: char)

  /** The escaping of one literal character (ansi-to-html.js:134-143). */
  function EscapeChar(c: char): (r: string)
    ensures '<' !in r && '>' !in r
    ensures c != '&' && c != '<' && c != '>' ==> r == [c]
  {
    if c == '&' then "&amp;"
    else if c == '<' then "&lt;"
    else if c == '>' then "&gt;"
    else [c]
  }

  /** `colorAttr` (ansi-to-html.js:117). */
  function ColorAttribute(st: Style): (r: string)
    ensures r == [] <==> st.fg.None?
  {
    if st.fg.Some? then " color=\"" + st.fg.value + "\"" else ""
  }

  /** Text `p` when `on`, nothing otherwise. */
  function Part(on: bool, p: string): string {
    if on then p else ""
  }

  const WeightRule: string := "font-weight:bold;"
  const OpacityRule: string := "opacity:0.7;"
  const SlantRule: string := "font-style:italic;"
  const DecorationRule: string := "text-decoration:underline;"

  function BackgroundRule(st: Style): string {
    if st.bg.Some? then "background-color:" + st.bg.value + ";" else ""
  }

  /** `styleAttr` (ansi-to-html.js:119-124). */
  function StyleDeclaration(st: Style): string {
    "display:contents;" + BackgroundRule(st)
    + Part(st.bold, WeightRule) + Part(st.dim, OpacityRule)
    + Part(st.italic, SlantRule) + Part(st.underline, DecorationRule)
  }

  /** The opening wrapper (ansi-to-html.js:126). */
  function OpenTag(st: Style): string {
    "<font" + ColorAttribute(st) + " style=\"" + StyleDeclaration(st) + "\">"
  }

  const CloseTag: string := "</font>"

  function RenderToken(t: Token): (r: string)
    ensures r != []
  {
    match t
    case Open(st) => OpenTag(st)
    case Close => CloseTag
    case Lit(c) => EscapeChar(c)
  }

  /** The output string: the rendered tokens, in order. */
  function Render(ts: seq<Token>): (r: string)
    ensures |r| >= |ts|
  {
    if ts == [] then [] else RenderToken(ts[0]) + Render(ts[1..])
  }

  /** The literal characters of a token list, in order. */
  function Literals(ts: seq<Token>): string {
    if ts == [] then []
    else (if ts[0].Lit? then [ts[0].c] else []) + Literals(ts[1..])
  }

  /** Every character of `s` as a literal, no wrapper. */
  function LitTokens(s: string): seq<Token> {
    seq(|s|, i requires 0 <= i < |s| => Lit(s[i]))
  }

  /** `s` with `&`, `<` and `>` escaped and nothing else changed. */
  function EscapeText(s: string): string {
    Render(LitTokens(s))
  }

  lemma {:induction false} RenderAppend(a: seq<Token>, b: seq<Token>)
    ensures Render(a + b) == Render(a) + Render(b)
    ensures Literals(a + b) == Literals(a) + Literals(b)
    decreases |a|
  {
    if a == [] {
      assert a + b == b;
    } else {
      var t := a[1..];
      assert (a + b)[0] == a[0] && (a + b)[1..] == t + b;
      RenderAppend(t, b);
      Associate(RenderToken(a[0]), Render(t), Render(b));
      Associate(if a[0].Lit? then [a[0].c] else [], Literals(t), Literals(b));
    }
  }

  // ----- Reading the markup back -----

  predicate StartsWith(h: string, p: string) {
    |p| <= |h| && h[..|p|] == p
  }

  /** `w + x` cannot start with `p` when `w` and `p` differ at position `i`. */
  lemma Mismatch(w: string, x: string, p: string, i: nat)
    requires i < |w| && i < |p| && w[i] != p[i]
    ensures !StartsWith(w + x, p)
  {
    var h := w + x;
    if |p| <= |h| {
      assert h[..|p|][i] == w[i];
    }
  }

  lemma StartsWithConcat(p: string, x: string)
    ensures StartsWith(p + x, p) && (p + x)[|p|..] == x
  {
    assert (p + x)[..|p|] == p;
  }

  /** The text after the first `>`, or nothing when there is none. */
  function SkipTag(h: string): (r: string)
    ensures |r| <= |h|
  {
    if h == [] then []
    else if h[0] == '>' then h[1..]
    else SkipTag(h[1..])
  }

  /** The text of an HTML fragment: tags removed, `&amp;`, `&lt;` and `&gt;` resolved. */
  function TextOf(h: string): string
    decreases |h|
  {
    if h == [] then []
    else if h[0] == '<' then TextOf(SkipTag(h[1..]))
    else if StartsWith(h, "&amp;") then "&" + TextOf(h[5..])
    else if StartsWith(h, "&lt;") then "<" + TextOf(h[4..])
    else if StartsWith(h, "&gt;") then ">" + TextOf(h[4..])
    else [h[0]] + TextOf(h[1..])
  }

  lemma {:induction false} SkipTagAfter(w: string, rest: string)
    requires '>' !in w
    ensures SkipTag(w + ">" + rest) == rest
    decreases |w|
  {
    var h := w + ">" + rest;
    if w == [] {
      assert h == ">" + rest;
      assert h[1..] == rest;
    } else {
      assert w[0] in w;
      assert h[0] == w[0] && h[1..] == w[1..] + ">" + rest;
      assert '>' !in w[1..] by { assert w == [w[0]] + w[1..]; }
      SkipTagAfter(w[1..], rest);
    }
  }

  lemma HexHasNoMarkup(v: string)
    requires IsHexColor(v)
    ensures '>' !in v && '"' !in v && ';' !in v
  {
    forall k | 0 <= k < |v|
      ensures v[k] != '>' && v[k] != '"' && v[k] != ';'
    {
      if k > 0 {
        assert IsHexDigit(v[k]);
      }
    }
  }

  lemma NoAngleInRules(st: Style)
    requires ValidStyle(st)
    ensures '>' !in ColorAttribute(st) && '>' !in StyleDeclaration(st)
  {
    if st.fg.Some? { HexHasNoMarkup(st.fg.value); }
    NoAngleInDeclaration(st);
  }

  lemma NoAngleInDeclaration(st: Style)
    requires ValidStyle(st)
    ensures '>' !in StyleDeclaration(st)
  {
    if st.bg.Some? { HexHasNoMarkup(st.bg.value); }
    NoAngleIn("display:contents;");
    NoAngleIn("background-color:");
    NoAngleIn(WeightRule);
    NoAngleIn(OpacityRule);
    NoAngleIn(SlantRule);
    NoAngleIn(DecorationRule);
  }

  /** Membership read off character by character, which is cheaper for the solver on literals. */
  lemma NoAngleIn(r: string)
    requires forall k :: 0 <= k < |r| ==> r[k] != '>'
    ensures '>' !in r
  {
  }

  /** What stands between `<` and `>` in an opening wrapper. */
  function TagBody(st: Style): string {
    "font" + ColorAttribute(st) + " style=\"" + StyleDeclaration(st) + "\""
  }

  /** An opening wrapper is `<`, text without `>`, then `>`. */
  lemma OpenTagShape(st: Style)
    requires ValidStyle(st)
    ensures OpenTag(st) == "<" + TagBody(st) + ">"
    ensures '>' !in TagBody(st)
  {
    NoAngleInRules(st);
    var ca := ColorAttribute(st);
    var q := " style=\"";
    var sd := StyleDeclaration(st);
    var a := "font" + ca + q + sd;
    assert '>' !in a + "\"";
    var lt: string := "<";
    var qt: string := "\"";
    var gt: string := ">";
    assert "<font" == lt + "font" && "\">" == qt + gt;
    Associate(lt, "font", ca);
    Associate(lt, "font" + ca, q);
    Associate(lt, "font" + ca + q, sd);
    assert OpenTag(st) == (lt + a) + (qt + gt);
    Associate(lt + a, qt, gt);
    Associate(lt, a, qt);
  }

  /** A tag is dropped whole. */
  lemma TextOfTag(body: string, rest: string)
    requires '>' !in body
    ensures TextOf("<" + body + ">" + rest) == TextOf(rest)
  {
    var h := "<" + body + ">" + rest;
    assert h[0] == '<';
    assert h[1..] == body + ">" + rest;
    SkipTagAfter(body, rest);
  }

  /** An escaped character reads back as itself. */
  lemma TextOfEscaped(c: char, rest: string)
    ensures TextOf(EscapeChar(c) + rest) == [c] + TextOf(rest)
  {
    var h := EscapeChar(c) + rest;
    if c == '&' {
      StartsWithConcat("&amp;", rest);
    } else if c == '<' {
      Mismatch("&lt;", rest, "&amp;", 1);
      StartsWithConcat("&lt;", rest);
    } else if c == '>' {
      Mismatch("&gt;", rest, "&amp;", 1);
      Mismatch("&gt;", rest, "&lt;", 1);
      StartsWithConcat("&gt;", rest);
    } else {
      Mismatch([c], rest, "&amp;", 0);
      Mismatch([c], rest, "&lt;", 0);
      Mismatch([c], rest, "&gt;", 0);
      assert h[0] == c && h[1..] == rest;
    }
  }

  /** The text of one rendered token followed by more markup. */
  lemma TextOfToken(t: Token, rest: string)
    requires t.Open? ==> ValidStyle(t.style)
    ensures TextOf(RenderToken(t) + rest) == Literals([t]) + TextOf(rest)
  {
    LiteralsOne(t);
    match t
    case Open(st) =>
      OpenTagShape(st);
      TextOfTag(TagBody(st), rest);
    case Close =>
      assert CloseTag == "<" + "/font" + ">";
      TextOfTag("/font", rest);
    case Lit(c) =>
      TextOfEscaped(c, rest);
  }

  /** Removing the tags and resolving the entities gives back exactly the literal characters. */
  lemma {:induction false} TextOfRender(ts: seq<Token>)
    requires forall k :: 0 <= k < |ts| && ts[k].Open? ==> ValidStyle(ts[k].style)
    ensures TextOf(Render(ts)) == Literals(ts)
    decreases |ts|
  {
    if ts != [] {
      TextOfToken(ts[0], Render(ts[1..]));
      TextOfRender(ts[1..]);
      LiteralsOne(ts[0]);
    }
  }

  lemma LiteralsOne(t: Token)
    ensures Literals([t]) == if t.Lit? then [t.c] else []
  {
    assert [t][1..] == [];
    AppendEmpty(if t.Lit? then [t.c] else []);
  }

  lemma {:induction false} LiteralsOfLitTokens(s: string)
    ensures Literals(LitTokens(s)) == s
    decreases |s|
  {
    if s != [] {
      assert LitTokens(s)[1..] == LitTokens(s[1..]);
      LiteralsOfLitTokens(s[1..]);
    }
  }

  /**
   Escaped text holds no `<` and no `>`, and resolving the entities gives
   back the original text.
   */
  lemma EscapeTextRoundTrip(s: string)
    ensures TextOf(EscapeText(s)) == s
    ensures '<' !in EscapeText(s) && '>' !in EscapeText(s)
  {
    TextOfRender(LitTokens(s));
    LiteralsOfLitTokens(s);
    NoMarkupInLiterals(LitTokens(s));
  }

  lemma {:induction false} NoMarkupInLiterals(ts: seq<Token>)
    requires forall k :: 0 <= k < |ts| ==> ts[k].Lit?
    ensures '<' !in Render(ts) && '>' !in Render(ts)
    decreases |ts|
  {
    if ts != [] {
      NoMarkupInLiterals(ts[1..]);
    }
  }

  // ----- Decoding an opening wrapper -----

  function Chop(h: string, p: string): Option<string> {
    if StartsWith(h, p) then Some(h[|p|..]) else None
  }

  lemma ChopConcat(p: string, x: string)
    ensures Chop(p + x, p) == Some(x)
  {
    StartsWithConcat(p, x);
  }

  function IndexOf(h: string, stop: char): (n: nat)
    ensures n <= |h|
    ensures forall k :: 0 <= k < n ==> h[k] != stop
    ensures n < |h| ==> h[n] == stop
  {
    if h == [] || h[0] == stop then 0 else 1 + IndexOf(h[1..], stop)
  }

  /** The text before the first `stop` and the text after it. */
  function ReadUntil(h: string, stop: char): Option<(string, string)> {
    var n := IndexOf(h, stop);
    if n < |h| then Some((h[..n], h[n + 1..])) else None
  }

  /** An optional rule: whether `h` starts with it, and what follows. */
  function Switch(h: string, p: string): (bool, string) {
    if StartsWith(h, p) then (true, h[|p|..]) else (false, h)
  }

  function DecodeColor(a: string): Option<(Option<string>, string)> {
    if StartsWith(a, " color=\"") then
      var (v, rest) :- ReadUntil(a[8..], '"');
      Some((Some(v), rest))
    else Some((None, a))
  }

  function DecodeBackground(b: string): Option<(Option<string>, string)> {
    if StartsWith(b, "background-color:") then
      var (v, rest) :- ReadUntil(b[17..], ';');
      Some((Some(v), rest))
    else Some((None, b))
  }

  /** The four optional rules, each at most once and in the emitter's order, then the end of the tag. */
  function DecodeRules(h: string): Option<(bool, bool, bool, bool)> {
    var (bold, b1) := Switch(h, WeightRule);
    var (dim, b2) := Switch(b1, OpacityRule);
    var (italic, b3) := Switch(b2, SlantRule);
    var (underline, b4) := Switch(b3, DecorationRule);
    if b4 == "\">" then Some((bold, dim, italic, underline)) else None
  }

  /**
   Reads an opening wrapper back into the style it carries, insisting on
   `display:contents;` first and the other rules in the emitter's order.
   */
  function DecodeOpenTag(h: string): Option<Style> {
    var a :- Chop(h, "<font");
    var color :- DecodeColor(a);
    var b :- Chop(color.1, " style=\"display:contents;");
    var back :- DecodeBackground(b);
    var flags :- DecodeRules(back.1);
    Some(Style(color.0, back.0, flags.0, flags.1, flags.2, flags.3))
  }

  lemma ReadUntilConcat(v: string, stop: char, rest: string)
    requires stop !in v
    ensures ReadUntil(v + [stop] + rest, stop) == Some((v, rest))
  {
    var h := v + [stop] + rest;
    assert forall k :: 0 <= k < |v| ==> h[k] == v[k];
    assert h[|v|] == stop;
    assert IndexOf(h, stop) == |v|;
    assert h[..|v|] == v;
    assert h[|v| + 1..] == rest;
  }

  // The style declaration read from the back: the rules from each flag on.
  function FromDecoration(st: Style): string {
    Part(st.underline, DecorationRule) + "\">"
  }

  function FromSlant(st: Style): string {
    Part(st.italic, SlantRule) + FromDecoration(st)
  }

  function FromOpacity(st: Style): string {
    Part(st.dim, OpacityRule) + FromSlant(st)
  }

  function FromWeight(st: Style): string {
    Part(st.bold, WeightRule) + FromOpacity(st)
  }

  lemma SwitchPart(on: bool, p: string, rest: string)
    requires !StartsWith(rest, p)
    ensures Switch(Part(on, p) + rest, p) == (on, rest)
  {
    if on {
      StartsWithConcat(p, rest);
    } else {
      assert Part(on, p) + rest == rest;
    }
  }

  lemma EndIsNoRule(x: string, p: string)
    requires |p| > 0 && p[0] != '"'
    ensures !StartsWith("\">" + x, p)
  {
    Mismatch("\">", x, p, 0);
  }

  lemma FromDecorationNotSlant(st: Style)
    ensures !StartsWith(FromDecoration(st), SlantRule)
  {
    if st.underline {
      Mismatch(DecorationRule, "\">", SlantRule, 0);
    } else {
      EndIsNoRule([], SlantRule);
      assert FromDecoration(st) == "\">" + [];
    }
  }

  lemma FromSlantNotOpacity(st: Style)
    ensures !StartsWith(FromSlant(st), OpacityRule)
  {
    if st.italic {
      Mismatch(SlantRule, FromDecoration(st), OpacityRule, 0);
    } else if st.underline {
      Mismatch(DecorationRule, "\">", OpacityRule, 0);
      assert FromSlant(st) == DecorationRule + "\">";
    } else {
      EndIsNoRule([], OpacityRule);
      assert FromSlant(st) == "\">" + [];
    }
  }

  lemma FromOpacityNotWeight(st: Style)
    ensures !StartsWith(FromOpacity(st), WeightRule)
  {
    if st.dim {
      Mismatch(OpacityRule, FromSlant(st), WeightRule, 0);
    } else if st.italic {
      Mismatch(SlantRule, FromDecoration(st), WeightRule, 5);
      assert FromOpacity(st) == SlantRule + FromDecoration(st);
    } else if st.underline {
      Mismatch(DecorationRule, "\">", WeightRule, 0);
      assert FromOpacity(st) == DecorationRule + "\">";
    } else {
      EndIsNoRule([], WeightRule);
      assert FromOpacity(st) == "\">" + [];
    }
  }

  lemma FromWeightNotBackground(st: Style)
    ensures !StartsWith(FromWeight(st), "background-color:")
  {
    var p := "background-color:";
    if st.bold {
      Mismatch(WeightRule, FromOpacity(st), p, 0);
    } else if st.dim {
      Mismatch(OpacityRule, FromSlant(st), p, 0);
      assert FromWeight(st) == OpacityRule + FromSlant(st);
    } else if st.italic {
      Mismatch(SlantRule, FromDecoration(st), p, 0);
      assert FromWeight(st) == SlantRule + FromDecoration(st);
    } else if st.underline {
      Mismatch(DecorationRule, "\">", p, 0);
      assert FromWeight(st) == DecorationRule + "\">";
    } else {
      EndIsNoRule([], p);
      assert FromWeight(st) == "\">" + [];
    }
  }

  /** The four optional rules read back as the four flags. */
  lemma DecodeRulesOfStyle(st: Style)
    ensures DecodeRules(FromWeight(st)) == Some((st.bold, st.dim, st.italic, st.underline))
  {
    FromOpacityNotWeight(st);
    SwitchPart(st.bold, WeightRule, FromOpacity(st));
    FromSlantNotOpacity(st);
    SwitchPart(st.dim, OpacityRule, FromSlant(st));
    FromDecorationNotSlant(st);
    SwitchPart(st.italic, SlantRule, FromDecoration(st));
    EndIsNoRule([], DecorationRule);
    assert "\">" + [] == "\">";
    SwitchPart(st.underline, DecorationRule, "\">");
  }

  lemma DecodeBackgroundOf(st: Style)
    requires ValidStyle(st)
    ensures DecodeBackground(BackgroundRule(st) + FromWeight(st)) == Some((st.bg, FromWeight(st)))
  {
    var flags := FromWeight(st);
    if st.bg.Some? {
      var v := st.bg.value;
      HexHasNoMarkup(v);
      assert BackgroundRule(st) + flags == "background-color:" + (v + [';'] + flags);
      StartsWithConcat("background-color:", v + [';'] + flags);
      ReadUntilConcat(v, ';', flags);
    } else {
      FromWeightNotBackground(st);
      assert BackgroundRule(st) + flags == flags;
    }
  }

  lemma DecodeColorOf(st: Style, c: string)
    requires ValidStyle(st)
    requires StartsWith(c, " style=")
    ensures DecodeColor(ColorAttribute(st) + c) == Some((st.fg, c))
  {
    if st.fg.Some? {
      var v := st.fg.value;
      HexHasNoMarkup(v);
      assert ColorAttribute(st) + c == " color=\"" + (v + ['"'] + c);
      StartsWithConcat(" color=\"", v + ['"'] + c);
      ReadUntilConcat(v, '"', c);
    } else {
      assert c == " style=" + c[7..];
      assert ColorAttribute(st) + c == c;
      Mismatch(" style=", c[7..], " color=\"", 1);
    }
  }

  /** The opening wrapper, grouped the way the decoder reads it. */
  lemma OpenTagLayout(st: Style)
    ensures OpenTag(st) == "<font" + (ColorAttribute(st) + (" style=\"display:contents;" + (BackgroundRule(st) + FromWeight(st))))
  {
    var d := Part(st.underline, DecorationRule);
    var i := Part(st.italic, SlantRule);
    var o := Part(st.dim, OpacityRule);
    var w := Part(st.bold, WeightRule);
    var g := BackgroundRule(st);
    var end: string := "\">";
    var x1 := "display:contents;" + g;
    var x2 := x1 + w;
    var x3 := x2 + o;
    var x4 := x3 + i;
    Associate(x4, d, end);
    Associate(x3, i, d + end);
    Associate(x2, o, i + (d + end));
    Associate(x1, w, o + (i + (d + end)));
    Associate("display:contents;", g, FromWeight(st));
    var sd := StyleDeclaration(st);
    var q := " style=\"";
    var ca := ColorAttribute(st);
    assert sd + end == "display:contents;" + (g + FromWeight(st));
    Associate("<font" + ca + q, sd, end);
    Associate("<font" + ca, q, sd + end);
    Associate("<font", ca, q + (sd + end));
    Associate(q, "display:contents;", g + FromWeight(st));
    assert q + "display:contents;" == " style=\"display:contents;";
  }

  /**
   Decoding an opening wrapper gives back its style: the `color` attribute is
   there exactly when a foreground is set, and the style rules come in the
   emitter's fixed order.
   */
  lemma DecodeOpenTagRoundTrip(st: Style)
    requires ValidStyle(st)
    ensures DecodeOpenTag(OpenTag(st)) == Some(st)
  {
    var b := BackgroundRule(st) + FromWeight(st);
    var c := " style=\"display:contents;" + b;
    OpenTagLayout(st);
    ChopConcat("<font", ColorAttribute(st) + c);
    StyleAttributeStart(b);
    DecodeColorOf(st, c);
    ChopConcat(" style=\"display:contents;", b);
    DecodeBackgroundOf(st);
    DecodeRulesOfStyle(st);
  }

  lemma StyleAttributeStart(b: string)
    ensures StartsWith(" style=\"display:contents;" + b, " style=")
  {
    Associate(" style=", "\"display:contents;", b);
    StartsWithConcat(" style=", "\"display:contents;" + b);
  }
}

=== FILE: normalize.dfy ===
/**
 The escape normalizer that runs once over the whole input before the
 emitter (ansi-to-html.js:45-50): the literal text `#x1B[` or `#x1b[` becomes
 ESC `[`, then two passes delete the cursor, erase and mode control sequences.
 Each `replace` call with a global regular expression is one `TextPass.Apply`.
 */
module Normalizer {
  import opened TextPass
  import opened Seqs

  /** `text.replace(/#x1[Bb]\[/g, '\x1b[')`. */
  function Unescape(s: seq<char>): (r: seq<char>)
    ensures |r| <= |s|
  {
    Apply(EscapedIntroducer, s)
  }

  /** `text.replace(/\x1b\[[0-9;]*[A-HJKSTfnsu]/g, '')`. */
  function StripCursorControls(s: seq<char>): (r: seq<char>)
    ensures |r| <= |s|
  {
    Apply(ControlSequence(CursorFinals), s)
  }

  /** `text.replace(/\x1b\[[0-9;]*[lh]/g, '')`. */
  function StripModeControls(s: seq<char>): (r: seq<char>)
    ensures |r| <= |s|
  {
    Apply(ControlSequence(ModeFinals), s)
  }

  /** The three passes, in the order `convert` runs them. */
  function Normalize(s: seq<char>): (r: seq<char>)
    ensures |r| <= |s|
  {
    StripModeControls(StripCursorControls(Unescape(s)))
  }

  /**
   If unescaping produced `w` at the front and `w` holds no ESC, then no
   introducer was rewritten there: the input starts with `w` too.
   */
  lemma {:induction false} KeptPrefix(r: seq<char>, w: seq<char>)
    requires ESC !in w
    requires |w| <= |Unescape(r)| && Unescape(r)[..|w|] == w
    ensures |w| <= |r| && r[..|w|] == w
    decreases |w|
  {
    if w != [] {
      var u := Unescape(r);
      assert r != [];
      assert u[0] == w[0] && w[0] in w;
      if MatchLen(EscapedIntroducer, r) == 0 {
        assert u[1..] == Unescape(r[1..]);
        assert u[1..][..|w| - 1] == w[1..];
        KeptPrefix(r[1..], w[1..]);
        assert r[..|w|] == [r[0]] + r[1..][..|w| - 1];
      }
    }
  }

  lemma NoIntroducerWithoutHash(v: seq<char>)
    requires v != [] && v[0] != '#'
    ensures MatchLen(EscapedIntroducer, v) == 0
  {
    if |v| >= 5 {
      assert v[..5][0] == v[0];
    }
  }

  /** No introducer is left in the output of `Unescape`: the pass cannot create one. */
  lemma {:induction false} UnescapeLeavesNoIntroducer(s: seq<char>)
    ensures forall i :: 0 <= i < |Unescape(s)| ==> MatchLen(EscapedIntroducer, Unescape(s)[i..]) == 0
    decreases |s|
  {
    var u := Unescape(s);
    if s != [] {
      var n := MatchLen(EscapedIntroducer, s);
      if n > 0 {
        var tail := Unescape(s[n..]);
        UnescapeLeavesNoIntroducer(s[n..]);
        assert u == [ESC, '['] + tail;
        forall i | 0 <= i < |u|
          ensures MatchLen(EscapedIntroducer, u[i..]) == 0
        {
          if i >= 2 {
            assert u[i..] == tail[i - 2..];
          } else {
            NoIntroducerWithoutHash(u[i..]);
          }
        }
      } else {
        var r := s[1..];
        var tail := Unescape(r);
        UnescapeLeavesNoIntroducer(r);
        assert u == [s[0]] + tail;
        forall i | 0 <= i < |u|
          ensures MatchLen(EscapedIntroducer, u[i..]) == 0
        {
          if i >= 1 {
            assert u[i..] == tail[i - 1..];
          } else if |u| >= 5 && Matches(EscapedIntroducer, u[..5]) {
            assert tail[..4] == u[1..5];
            if |s| >= 5 {
              assert s[..5] == [s[0]] + r[..4];
            }
            KeptPrefix(r, u[1..5]);
          }
        }
      }
    }
  }

  /** Unescaping twice is unescaping once. */
  lemma UnescapeIsIdempotent(s: seq<char>)
    ensures Unescape(Unescape(s)) == Unescape(s)
  {
    UnescapeLeavesNoIntroducer(s);
    ApplyWithoutMatches(EscapedIntroducer, Unescape(s));
  }

  /**
   The stripping pass is a single scan: removing one control sequence can
   bring an ESC and the text after the removed sequence together into a new
   one, which stays in the output.
   */
  lemma StripCanExposeControl()
    ensures StripCursorControls([ESC, ESC, '[', 'A', '[', 'A']) == [ESC, '[', 'A']
  {
    var p := ControlSequence(CursorFinals);
    var s: seq<char> := [ESC, ESC, '[', 'A', '[', 'A'];
    assert MatchLen(p, s) == 0;
    assert MatchLen(p, s[1..]) == 3 by {
      assert s[1..][..3] == [ESC, '[', 'A'];
      assert Matches(p, s[1..][..3]);
    }
    assert s[1..][3..] == ['[', 'A'];
    assert Apply(p, ['A']) == ['A'] by {
      NoControlWithoutEsc(['A']);
      assert ['A'][1..] == [];
    }
    assert Apply(p, ['[', 'A']) == ['[', 'A'] by {
      NoControlWithoutEsc(['[', 'A']);
      assert ['[', 'A'][1..] == ['A'];
    }
    assert Apply(p, s[1..]) == ['[', 'A'];
    assert Apply(p, s) == [ESC] + Apply(p, s[1..]);
  }

  lemma NoControlWithoutEsc(v: seq<char>)
    requires v != [] && v[0] != ESC
    ensures MatchLen(ControlSequence(CursorFinals), v) == 0
  {
  }

  /** Unescaping text without `#` leaves it as is, also in front of more text. */
  lemma {:induction false} UnescapeHashFree(w: seq<char>, t: seq<char>)
    requires '#' !in w
    ensures Unescape(w + t) == w + Unescape(t)
    decreases |w|
  {
    if w == [] {
      assert w + t == t;
    } else {
      assert (w + t)[0] == w[0];
      NoIntroducerWithoutHash(w + t);
      assert (w + t)[1..] == w[1..] + t;
      UnescapeHashFree(w[1..], t);
    }
  }

  /** A pass that finds no match in the first `|w|` positions copies them and goes on with the rest. */
  lemma {:induction false} ApplyKeepsFront(p: Pattern, w: seq<char>, u: seq<char>)
    requires forall i :: 0 <= i < |w| ==> MatchLen(p, (w + u)[i..]) == 0
    ensures Apply(p, w + u) == w + Apply(p, u)
    decreases |w|
  {
    if w == [] {
      assert w + u == u;
    } else {
      var s := w + u;
      assert s[0..] == s;
      assert s[1..] == w[1..] + u;
      forall i | 0 <= i < |w| - 1
        ensures MatchLen(p, (w[1..] + u)[i..]) == 0
      {
        assert (w[1..] + u)[i..] == s[i + 1..];
      }
      ApplyKeepsFront(p, w[1..], u);
      Rejoin(w, 1);
      Associate([w[0]], w[1..], Apply(p, u));
    }
  }

  /** A whole control sequence with final byte in `f` at the front is dropped by the pass for `f`. */
  lemma ControlAtFront(f: FinalSet, params: seq<char>, c: char, u: seq<char>)
    requires forall k :: 0 <= k < |params| ==> IsParamChar(params[k])
    requires IsFinal(f, c)
    ensures Apply(ControlSequence(f), [ESC, '['] + params + [c] + u) == Apply(ControlSequence(f), u)
  {
    var w := [ESC, '['] + params + [c];
    var s := w + u;
    assert forall k :: 2 <= k < |w| - 1 ==> w[k] == params[k - 2];
    assert Matches(ControlSequence(f), w);
    assert s[..|w|] == w;
    assert s[|w|..] == u;
  }

  /**
   A cursor or erase sequence such as `ESC[2J` vanishes: normalizing it
   together with the text after it is normalizing that text alone.
   */
  lemma CursorControlVanishes(params: seq<char>, c: char, t: seq<char>)
    requires forall k :: 0 <= k < |params| ==> IsParamChar(params[k])
    requires IsFinal(CursorFinals, c)
    ensures Normalize([ESC, '['] + params + [c] + t) == Normalize(t)
  {
    var w := [ESC, '['] + params + [c];
    assert forall k :: 0 <= k < |w| ==> w[k] != '#';
    UnescapeHashFree(w, t);
    ControlAtFront(CursorFinals, params, c, Unescape(t));
  }

  /** A mode sequence such as `ESC[4l` survives the cursor pass and vanishes in the mode pass. */
  lemma ModeControlVanishes(params: seq<char>, c: char, t: seq<char>)
    requires forall k :: 0 <= k < |params| ==> IsParamChar(params[k])
    requires IsFinal(ModeFinals, c)
    ensures Normalize([ESC, '['] + params + [c] + t) == Normalize(t)
  {
    var w := [ESC, '['] + params + [c];
    assert forall k :: 0 <= k < |w| ==> w[k] != '#';
    UnescapeHashFree(w, t);
    var u := Unescape(t);
    NoCursorMatchInMode(params, c, u);
    ApplyKeepsFront(ControlSequence(CursorFinals), w, u);
    ControlAtFront(ModeFinals, params, c, StripCursorControls(u));
  }

  /** No cursor or erase sequence starts anywhere inside a mode sequence. */
  lemma NoCursorMatchInMode(params: seq<char>, c: char, u: seq<char>)
    requires forall k :: 0 <= k < |params| ==> IsParamChar(params[k])
    requires IsFinal(ModeFinals, c)
    ensures forall i :: 0 <= i < |params| + 3 ==>
      MatchLen(ControlSequence(CursorFinals), ([ESC, '['] + params + [c] + u)[i..]) == 0
  {
    var w := [ESC, '['] + params + [c];
    var s := w + u;
    forall i | 0 <= i < |w|
      ensures MatchLen(ControlSequence(CursorFinals), s[i..]) == 0
    {
      if i == 0 {
        assert s[0..] == s;
        assert s[2..][..|params|] == params && s[2..][|params|] == c;
        ParamRunStops(s[2..], params, c);
      } else {
        assert s[i..][0] == w[i] != ESC;
      }
    }
  }

  /** The parameter run ends at the first character that is no digit or semicolon. */
  lemma ParamRunStops(v: seq<char>, params: seq<char>, c: char)
    requires |params| < |v| && v[..|params|] == params && v[|params|] == c
    requires forall k :: 0 <= k < |params| ==> IsParamChar(params[k])
    requires !IsParamChar(c)
    ensures ParamRun(v) == |params|
  {
    assert forall k :: 0 <= k < |params| ==> v[k] == params[k];
  }

  /**
   No control sequence starts inside ESC `[` p when p holds no ESC and begins
   with a character that is neither a parameter character nor a final byte.
   */
  lemma NoControlMatchInPrivate(f: FinalSet, p: seq<char>, u: seq<char>)
    requires p != [] && !IsParamChar(p[0]) && !IsFinal(f, p[0])
    requires forall k :: 0 <= k < |p| ==> p[k] != ESC
    ensures forall i :: 0 <= i < |p| + 2 ==>
      MatchLen(ControlSequence(f), ([ESC, '['] + p + u)[i..]) == 0
  {
    var w := [ESC, '['] + p;
    var s := w + u;
    forall i | 0 <= i < |w|
      ensures MatchLen(ControlSequence(f), s[i..]) == 0
    {
      if i == 0 {
        assert s[0..] == s;
        assert s[2..][0] == p[0];
      } else {
        assert s[i..][0] == w[i] != ESC;
      }
    }
  }

  /**
   A private-mode sequence such as `ESC[?25l` is matched by neither stripping
   pattern, whose parameters are digits and semicolons only, so normalization
   keeps it and goes on after it.
   */
  lemma PrivateModeSurvives(p: seq<char>, t: seq<char>)
    requires p != [] && !IsParamChar(p[0])
    requires !IsFinal(CursorFinals, p[0]) && !IsFinal(ModeFinals, p[0])
    requires forall k :: 0 <= k < |p| ==> p[k] != ESC && p[k] != '#'
    ensures Normalize([ESC, '['] + p + t) == [ESC, '['] + p + Normalize(t)
  {
    var w := [ESC, '['] + p;
    assert forall k :: 0 <= k < |w| ==> w[k] != '#';
    UnescapeHashFree(w, t);
    var u := Unescape(t);
    NoControlMatchInPrivate(CursorFinals, p, u);
    ApplyKeepsFront(ControlSequence(CursorFinals), w, u);
    var v := StripCursorControls(u);
    NoControlMatchInPrivate(ModeFinals, p, v);
    ApplyKeepsFront(ControlSequence(ModeFinals), w, v);
  }

  /** `ESC[?25l`, the hide-cursor sequence, passes normalization untouched. */
  lemma HideCursorSurvives(t: seq<char>)
    ensures Normalize([ESC, '['] + "?25l" + t) == [ESC, '['] + "?25l" + Normalize(t)
  {
    PrivateModeSurvives("?25l", t);
  }
}

=== FILE: optional.dfy ===
/** An optional value, usable with `:-` for early exit on `None`. */
module Optional {

  datatype Option<+T> = None | Some(value: T) {

    predicate IsFailure() {
      None?
    }

    function PropagateFailure<U>(): Option<U>
      requires None?
    {
      None
    }

    function Extract(): T
      requires Some?
    {
      value
    }
  }
}

=== FILE: seqs.dfy ===
/**
 Facts about sequence concatenation, stated once so that proofs about long
 strings and token lists can call them instead of rediscovering them.
 */
module Seqs {

  /** Regrouping a concatenation. */
  lemma Associate<T>(a: seq<T>, b: seq<T>, c: seq<T>)
    ensures a + b + c == a + (b + c)
  {
  }

  lemma AppendEmpty<T>(a: seq<T>)
    ensures a + [] == a && [] + a == a
  {
  }

  /** Cutting a sequence in two and putting the halves back together. */
  lemma Rejoin<T>(s: seq<T>, n: nat)
    requires n <= |s|
    ensures s[..n] + s[n..] == s
    ensures n == 1 ==> [s[0]] + s[1..] == s
  {
  }
}

=== FILE: sgr_params.dfy ===
/**
 The parameter list of one SGR sequence:
 `text.slice(i + 2, j).split(';').map(c => parseInt(c, 10) || 0)`
 (ansi-to-html.js:74). `parseInt` with radix 10 skips leading white space,
 accepts one sign, reads the longest run of ASCII digits and gives NaN when
 there is none; `|| 0` turns NaN and -0 into 0.
 */
module SgrParams {

  /** How many semicolons `t` holds. */
  function Semicolons(t: string): nat
    decreases |t|
  {
    if t == [] then 0 else (if t[0] == ';' then 1 else 0) + Semicolons(t[1..])
  }

  /** `s.split(';')`: always at least one field, one more than there are semicolons. */
  function SplitFields(t: string): (fs: seq<string>)
    ensures |fs| == Semicolons(t) + 1
    ensures forall i :: 0 <= i < |fs| ==> ';' !in fs[i]
    decreases |t|
  {
    if t == [] then [[]]
    else
      assert t == [t[0]] + t[1..];
      var r := SplitFields(t[1..]);
      if t[0] == ';' then [[]] + r
      else [[t[0]] + r[0]] + r[1..]
  }

  /** `fs.join(';')`, the inverse of splitting. */
  function JoinFields(fs: seq<string>): string
    requires |fs| >= 1
    decreases |fs|
  {
    if |fs| == 1 then fs[0] else fs[0] + ";" + JoinFields(fs[1..])
  }

  /** Joining the fields gives back the parameter text. */
  lemma {:induction false} JoinSplit(t: string)
    ensures JoinFields(SplitFields(t)) == t
    decreases |t|
  {
    if t != [] {
      var r := SplitFields(t[1..]);
      JoinSplit(t[1..]);
      if t[0] == ';' {
        assert SplitFields(t)[1..] == r;
      } else {
        var fs := SplitFields(t);
        if |r| > 1 {
          assert fs[1..] == r[1..];
          assert JoinFields(r) == r[0] + ";" + JoinFields(r[1..]);
        }
      }
    }
  }

  /** Splitting a field free of semicolons, followed by more text, extends that text's first field. */
  lemma {:induction false} SplitPrefix(f: string, u: string)
    requires ';' !in f
    ensures SplitFields(f + u) == [f + SplitFields(u)[0]] + SplitFields(u)[1..]
    decreases |f|
  {
    if f != [] {
      var t := f + u;
      assert f == [f[0]] + f[1..];
      assert t[0] == f[0] != ';';
      assert t[1..] == f[1..] + u;
      SplitPrefix(f[1..], u);
      var r := SplitFields(t[1..]);
      var su := SplitFields(u);
      assert r == [f[1..] + su[0]] + su[1..];
      assert SplitFields(t) == [[f[0]] + r[0]] + r[1..];
      assert [f[0]] + r[0] == f + su[0];
    } else {
      var su := SplitFields(u);
      assert f + u == u && f + su[0] == su[0];
      assert su == [su[0]] + su[1..];
    }
  }

  /** Splitting joined semicolon-free fields gives the fields back. */
  lemma {:induction false} SplitJoin(fs: seq<string>)
    requires |fs| >= 1
    requires forall i :: 0 <= i < |fs| ==> ';' !in fs[i]
    ensures SplitFields(JoinFields(fs)) == fs
    decreases |fs|
  {
    if |fs| == 1 {
      SplitPrefix(fs[0], []);
      assert fs[0] + [] == fs[0];
    } else {
      var tail := JoinFields(fs[1..]);
      SplitJoin(fs[1..]);
      var u := ";" + tail;
      assert JoinFields(fs) == fs[0] + u;
      SplitPrefix(fs[0], u);
      assert SplitFields(u) == [[]] + SplitFields(tail) by {
        assert u[0] == ';' && u[1..] == tail;
      }
      assert SplitFields(u)[0] == [] && SplitFields(u)[1..] == fs[1..];
      assert fs[0] + [] == fs[0];
      assert fs == [fs[0]] + fs[1..];
    }
  }

  /**
   The characters `parseInt` skips before a number: white space and line
   terminators of ECMAScript (sections 7.2 and 7.3 of ECMA-262 edition 5.1,
   sections 12.2 and 12.3 of current editions), that is TAB,
   VT, FF, SPACE, NO-BREAK SPACE, ZERO WIDTH NO-BREAK SPACE, every other
   space separator, LF, CR, LINE SEPARATOR and PARAGRAPH SEPARATOR.
   */
  predicate IsJsSpace(c: char) {
    c == 0x09 as char || c == 0x0B as char || c == 0x0C as char || c == 0x20 as char
    || c == 0xA0 as char || c == 0xFEFF as char || c == 0x1680 as char
    || (0x2000 as char <= c <= 0x200A as char)
    || c == 0x202F as char || c == 0x205F as char || c == 0x3000 as char
    || c == 0x0A as char || c == 0x0D as char || c == 0x2028 as char || c == 0x2029 as char
  }

  predicate IsDigit(c: char) {
    '0' <= c <= '9'
  }

  /** Number of leading white-space characters. */
  function LeadingSpace(f: string): (n: nat)
    ensures n <= |f|
    ensures forall k :: 0 <= k < n ==> IsJsSpace(f[k])
    ensures n < |f| ==> !IsJsSpace(f[n])
  {
    if f == [] || !IsJsSpace(f[0]) then 0 else 1 + LeadingSpace(f[1..])
  }

  /** Number of leading decimal digits. */
  function DigitRun(f: string): (n: nat)
    ensures n <= |f|
    ensures forall k :: 0 <= k < n ==> IsDigit(f[k])
    ensures n < |f| ==> !IsDigit(f[n])
  {
    if f == [] || !IsDigit(f[0]) then 0 else 1 + DigitRun(f[1..])
  }

  /** The number a run of digits denotes, read most significant digit first. */
  function DigitsValue(d: string): nat
    requires forall k :: 0 <= k < |d| ==> IsDigit(d[k])
    decreases |d|
  {
    if d == [] then 0
    else
      assert IsDigit(d[|d| - 1]);
      DigitsValue(d[..|d| - 1]) * 10 + (d[|d| - 1] as int - '0' as int)
  }

  /** `parseInt(f, 10) || 0`, on unbounded integers. */
  function ParseField(f: string): (r: int)
    ensures (forall k :: 0 <= k < |f| ==> !IsDigit(f[k])) ==> r == 0
  {
    var u := f[LeadingSpace(f)..];
    var negative := |u| > 0 && u[0] == '-';
    var body := if |u| > 0 && (u[0] == '-' || u[0] == '+') then u[1..] else u;
    var d := body[..DigitRun(body)];
    if d == [] then 0
    else if negative then -(DigitsValue(d) as int)
    else DigitsValue(d)
  }

  /** The parameter text of one sequence, as the list of codes `convert` folds. */
  function Codes(t: string): (codes: seq<int>)
    ensures |codes| == Semicolons(t) + 1
  {
    var fs := SplitFields(t);
    seq(|fs|, i requires 0 <= i < |fs| => ParseField(fs[i]))
  }

  /** The decimal spelling of `n`, no sign, no leading zeros. */
  function Decimal(n: nat): (d: string)
    ensures |d| >= 1
    ensures forall k :: 0 <= k < |d| ==> IsDigit(d[k])
  {
    var last := ('0' as int + n % 10) as char;
    if n < 10 then [last] else Decimal(n / 10) + [last]
  }

  lemma {:induction false} DecimalValue(n: nat)
    ensures DigitsValue(Decimal(n)) == n
  {
    var d := Decimal(n);
    if n >= 10 {
      assert d[..|d| - 1] == Decimal(n / 10);
      DecimalValue(n / 10);
    } else {
      assert d[..0] == [];
    }
  }

  /** A decimal number followed by a non-digit parses back to that number. */
  lemma ParseDecimal(n: nat, rest: string)
    requires rest == [] || !IsDigit(rest[0])
    ensures ParseField(Decimal(n) + rest) == n
  {
    var d := Decimal(n);
    var f := d + rest;
    assert f[0] == d[0];
    assert LeadingSpace(f) == 0;
    assert f[0..] == f;
    assert forall k :: 0 <= k < |d| ==> IsDigit(f[k]);
    if |d| < |f| {
      assert f[|d|] == rest[0];
    }
    assert DigitRun(f) == |d|;
    assert f[..|d|] == d;
    DecimalValue(n);
  }

  /** Leading white space does not change the parsed value. */
  lemma ParseSkipsSpace(c: char, f: string)
    requires IsJsSpace(c)
    ensures ParseField([c] + f) == ParseField(f)
  {
    var g := [c] + f;
    assert g[1..] == f;
    assert g[LeadingSpace(g)..] == f[LeadingSpace(f)..];
  }

  /** A minus sign negates; `-5` is the code -5, which no branch of the fold acts on. */
  lemma ParseNegative(n: nat)
    ensures ParseField("-" + Decimal(n)) == -(n as int)
  {
    var d := Decimal(n);
    var f := "-" + d;
    assert LeadingSpace(f) == 0;
    assert f[0..] == f;
    assert f[1..] == d;
    assert DigitRun(d) == |d|;
    assert d[..|d|] == d;
    DecimalValue(n);
  }

  /**
   Any run of digits followed by a non-digit parses to the number it denotes,
   leading zeros included: `01` is 1.
   */
  lemma ParseDigits(d: string, rest: string)
    requires d != [] && forall k :: 0 <= k < |d| ==> IsDigit(d[k])
    requires rest == [] || !IsDigit(rest[0])
    ensures ParseField(d + rest) == DigitsValue(d)
  {
    assert (d + rest)[0] == d[0];
    DigitRunOf(d, rest);
    UnsignedValue(d + rest);
  }

  /** Text that starts with a digit parses to the value of its leading digit run. */
  lemma UnsignedValue(b: string)
    requires b != [] && IsDigit(b[0])
    ensures ParseField(b) == DigitsValue(b[..DigitRun(b)])
  {
    assert LeadingSpace(b) == 0;
    assert b[0..] == b;
  }

  /** The digit run at the front of `d + rest` is exactly `d`. */
  lemma DigitRunOf(d: string, rest: string)
    requires forall k :: 0 <= k < |d| ==> IsDigit(d[k])
    requires rest == [] || !IsDigit(rest[0])
    ensures DigitRun(d + rest) == |d| && (d + rest)[..|d|] == d
  {
    var f := d + rest;
    assert forall k :: 0 <= k < |d| ==> IsDigit(f[k]);
    if |d| < |f| {
      assert f[|d|] == rest[0];
    }
  }

  /** One sign in front of a run of digits: `-5x` is -5 and `+31` is 31. */
  lemma ParseSigned(sign: char, d: string, rest: string)
    requires sign == '-' || sign == '+'
    requires d != [] && forall k :: 0 <= k < |d| ==> IsDigit(d[k])
    requires rest == [] || !IsDigit(rest[0])
    ensures ParseField([sign] + d + rest)
      == if sign == '-' then -(DigitsValue(d) as int) else DigitsValue(d)
  {
    assert [sign] + d + rest == [sign] + (d + rest);
    assert (d + rest)[0] == d[0];
    SignApplies(sign, d + rest);
    ParseDigits(d, rest);
  }

  /** A sign in front of a digit negates the value, or keeps it. */
  lemma SignApplies(sign: char, b: string)
    requires sign == '-' || sign == '+'
    requires b != [] && IsDigit(b[0])
    ensures ParseField([sign] + b) == if sign == '-' then -ParseField(b) else ParseField(b)
  {
    var f := [sign] + b;
    assert LeadingSpace(f) == 0;
    assert f[0..] == f && f[1..] == b;
    assert LeadingSpace(b) == 0;
    assert b[0..] == b;
  }

  /** A sign with no digit right after it gives 0, whatever follows: `-x5` is 0. */
  lemma SignWithoutDigits(sign: char, rest: string)
    requires sign == '-' || sign == '+'
    requires rest == [] || !IsDigit(rest[0])
    ensures ParseField([sign] + rest) == 0
  {
    var f := [sign] + rest;
    assert LeadingSpace(f) == 0;
    assert f[0..] == f;
    assert f[1..] == rest;
    assert DigitRun(rest) == 0;
  }

  predicate AllDigits(d: string) {
    forall k :: 0 <= k < |d| ==> IsDigit(d[k])
  }

  /**
   A parameter list spelled as runs of digits joined by `;` gives the values
   of the runs, leading zeros and empty fields (code 0) included.
   */
  lemma CodesOfDigitRuns(ds: seq<string>)
    requires |ds| >= 1
    requires forall i :: 0 <= i < |ds| ==> AllDigits(ds[i])
    ensures Codes(JoinFields(ds))
      == seq(|ds|, i requires 0 <= i < |ds| && AllDigits(ds[i]) => DigitsValue(ds[i]))
  {
    forall i | 0 <= i < |ds|
      ensures ';' !in ds[i]
      ensures ParseField(ds[i]) == DigitsValue(ds[i])
    {
      assert AllDigits(ds[i]);
      if ds[i] != [] {
        ParseDigits(ds[i], []);
        assert ds[i] + [] == ds[i];
      }
    }
    SplitJoin(ds);
  }

  /** The spelling `01;31` of GNU tools is bold red: the codes 1 and 31. */
  lemma LeadingZeroCodes()
    ensures Codes("01;31") == [1, 31]
  {
    var ds := ["01", "31"];
    assert DigitsValue("01") == 1 by {
      assert "01"[..1] == "0" && "0"[..0] == [];
    }
    assert DigitsValue("31") == 31 by {
      assert "31"[..1] == "3" && "3"[..0] == [];
    }
    assert JoinFields(ds) == "01;31" by {
      assert ds[1..] == ["31"];
    }
    CodesOfDigitRuns(ds);
  }

  /** A parameter list spelled as decimals joined by `;` gives back its codes. */
  lemma CodesOfDecimals(ns: seq<nat>)
    requires |ns| >= 1
    ensures Codes(JoinFields(seq(|ns|, i requires 0 <= i < |ns| => Decimal(ns[i])))) == ns
  {
    var fs := seq(|ns|, i requires 0 <= i < |ns| => Decimal(ns[i]));
    forall i | 0 <= i < |fs|
      ensures ';' !in fs[i]
      ensures ParseField(fs[i]) == ns[i]
    {
      ParseDecimal(ns[i], []);
      assert fs[i] + [] == fs[i];
    }
    SplitJoin(fs);
  }

  /** A single decimal number is the single code it spells. */
  lemma CodesOfDecimal(n: nat)
    ensures Codes(Decimal(n)) == [n]
  {
    CodesOfDecimals([n]);
    assert JoinFields([Decimal(n)]) == Decimal(n);
  }

  /**
   A parameter text without `;` that starts with something other than white
   space, a sign or a digit (a `?`, say) is the single code 0.
   */
  lemma CodesOfNonNumber(p: string)
    requires p != [] && ';' !in p
    requires !IsJsSpace(p[0]) && p[0] != '-' && p[0] != '+' && !IsDigit(p[0])
    ensures Codes(p) == [0]
  {
    SplitJoin([p]);
    assert JoinFields([p]) == p;
    assert LeadingSpace(p) == 0 && p[0..] == p;
    assert DigitRun(p) == 0;
  }
}

=== FILE: sgr_state.dfy ===
/**
 The style state of the converter and the SGR fold over it
 (ansi-to-html.js:73-104). The source keeps the state in an object whose keys
 are present only while an attribute is set; here it is an immutable record
 with optional colours and four flags. The initial `null` and the empty object
 `{}` both mean "nothing set" to every later test in `convert`, so both are
 `Plain`.
 */
module SgrState {
  import opened Optional
  import opened Colors

  datatype Style = Style(
    fg: Option<string>,   // `color`, a foreground table entry
    bg: Option<string>,   // `bgColor`, a background table entry
    bold: bool,
    dim: bool,
    italic: bool,
    underline: bool)

  /** No attribute set: the state after a reset and before the first SGR. */
  const Plain: Style := Style(None, None, false, false, false, false)

  /** `currentStyle && Object.keys(currentStyle).length > 0` (ansi-to-html.js:112). */
  predicate HasStyle(st: Style)
    ensures HasStyle(st) <==> st.fg.Some? || st.bg.Some? || st.bold || st.dim || st.italic || st.underline
  {
    st != Plain
  }

  /** Colours, when present, are hex colours as the tables hold them. */
  predicate ValidStyle(st: Style) {
    && (st.fg.Some? ==> IsHexColor(st.fg.value))
    && (st.bg.Some? ==> IsHexColor(st.bg.value))
  }

  /** The four on/off attributes and the codes that switch them on. */
  datatype Flag = Bold | Dim | Italic | Underline

  function FlagCode(f: Flag): int {
    match f
    case Bold => 1
    case Dim => 2
    case Italic => 3
    case Underline => 4
  }

  function FlagOf(st: Style, f: Flag): bool {
    match f
    case Bold => st.bold
    case Dim => st.dim
    case Italic => st.italic
    case Underline => st.underline
  }

  /** The two colour attributes. */
  datatype Layer = Fore | Back

  function ColorOf(st: Style, l: Layer): Option<string> {
    match l
    case Fore => st.fg
    case Back => st.bg
  }

  /** The codes that can change the colour of layer `l`: reset, default colour, or a table code. */
  predicate AffectsColor(l: Layer, code: int) {
    match l
    case Fore => code == 0 || code == 39 || IsForegroundCode(code)
    case Back => code == 0 || code == 49 || IsBackgroundCode(code)
  }

  /** The colour of layer `l` right after `code`, for a code that affects it. */
  function ColorEffect(l: Layer, code: int): Option<string>
    requires AffectsColor(l, code)
  {
    ForegroundTableShape();
    BackgroundTableShape();
    match l
    case Fore => if IsForegroundCode(code) then Some(Foreground[code]) else None
    case Back => if IsBackgroundCode(code) then Some(Background[code]) else None
  }

  /**
   One SGR parameter applied to the state (ansi-to-html.js:80-103). Reset
   clears everything; every other code changes at most its own attribute.
   */
  function ApplyCode(st: Style, code: int): (r: Style)
    ensures code == 0 ==> r == Plain
    ensures forall f :: FlagOf(r, f) == (code != 0 && (FlagOf(st, f) || code == FlagCode(f)))
    ensures forall l :: ColorOf(r, l) == (if AffectsColor(l, code) then ColorEffect(l, code) else ColorOf(st, l))
    ensures ValidStyle(st) ==> ValidStyle(r)
  {
    ForegroundTableShape();
    BackgroundTableShape();
    if code == 0 then Plain
    else if code == 1 then st.(bold := true)
    else if code == 2 then st.(dim := true)
    else if code == 3 then st.(italic := true)
    else if code == 4 then st.(underline := true)
    else if 30 <= code <= 37 then st.(fg := Some(Foreground[code]))
    else if 90 <= code <= 97 then st.(fg := Some(Foreground[code]))
    else if code == 39 then st.(fg := None)
    else if 40 <= code <= 47 then st.(bg := Some(Background[code]))
    else if 100 <= code <= 107 then st.(bg := Some(Background[code]))
    else if code == 49 then st.(bg := None)
    else st
  }

  /** The parameters of one SGR sequence applied strictly left to right (ansi-to-html.js:79-104). */
  function Fold(st: Style, codes: seq<int>): (r: Style)
    ensures ValidStyle(st) ==> ValidStyle(r)
    decreases |codes|
  {
    if codes == [] then st else Fold(ApplyCode(st, codes[0]), codes[1..])
  }

  /** Folding two parameter lists one after the other is folding their concatenation. */
  lemma {:induction false} FoldAppend(st: Style, a: seq<int>, b: seq<int>)
    ensures Fold(st, a + b) == Fold(Fold(st, a), b)
    decreases |a|
  {
    if a != [] {
      var st' := ApplyCode(st, a[0]);
      assert (a + b)[0] == a[0] && (a + b)[1..] == a[1..] + b;
      assert Fold(st, a + b) == Fold(st', a[1..] + b);
      assert Fold(st, a) == Fold(st', a[1..]);
      FoldAppend(st', a[1..], b);
    } else {
      assert a + b == b;
    }
  }

  /** A reset forgets everything before it: only the codes after the last 0 count. */
  lemma {:induction false} FoldFromLastReset(st: Style, codes: seq<int>, k: nat)
    requires k < |codes| && codes[k] == 0
    requires forall i :: k < i < |codes| ==> codes[i] != 0
    ensures Fold(st, codes) == Fold(Plain, codes[k + 1..])
    decreases k
  {
    if k == 0 {
      assert codes[1..] == codes[k + 1..];
    } else {
      assert codes[1..][k - 1 + 1..] == codes[k + 1..];
      FoldFromLastReset(ApplyCode(st, codes[0]), codes[1..], k - 1);
    }
  }

  /** Without a reset, flags only accumulate: a flag ends up set iff it was set or its code occurs. */
  lemma {:induction false} FoldFlagsWithoutReset(st: Style, codes: seq<int>, f: Flag)
    requires 0 !in codes
    ensures FlagOf(Fold(st, codes), f) <==> FlagOf(st, f) || FlagCode(f) in codes
    decreases |codes|
  {
    if codes != [] {
      assert codes == [codes[0]] + codes[1..];
      assert 0 !in codes[1..];
      FoldFlagsWithoutReset(ApplyCode(st, codes[0]), codes[1..], f);
    }
  }

  /** A colour no code of the list affects is left as it was. */
  lemma {:induction false} FoldColorUntouched(st: Style, codes: seq<int>, l: Layer)
    requires forall i :: 0 <= i < |codes| ==> !AffectsColor(l, codes[i])
    ensures ColorOf(Fold(st, codes), l) == ColorOf(st, l)
    decreases |codes|
  {
    if codes != [] {
      assert forall i :: 0 <= i < |codes| - 1 ==> codes[1..][i] == codes[i + 1];
      FoldColorUntouched(ApplyCode(st, codes[0]), codes[1..], l);
    }
  }

  /** A colour is decided by the last code of the list that affects it. */
  lemma {:induction false} FoldColorLastWord(st: Style, codes: seq<int>, l: Layer, k: nat)
    requires k < |codes| && AffectsColor(l, codes[k])
    requires forall i :: k < i < |codes| ==> !AffectsColor(l, codes[i])
    ensures ColorOf(Fold(st, codes), l) == ColorEffect(l, codes[k])
    decreases k
  {
    assert forall i :: 0 <= i < |codes| - 1 ==> codes[1..][i] == codes[i + 1];
    if k == 0 {
      FoldColorUntouched(ApplyCode(st, codes[0]), codes[1..], l);
    } else {
      FoldColorLastWord(ApplyCode(st, codes[0]), codes[1..], l, k - 1);
    }
  }

  /** A one-code list is that code applied once. */
  lemma SingleCode(st: Style, code: int)
    ensures Fold(st, [code]) == ApplyCode(st, code)
  {
    assert [code][1..] == [];
  }

  /** A foreground table code sets the foreground to its entry and changes nothing else. */
  lemma ForegroundCode(st: Style, code: int)
    requires IsForegroundCode(code)
    ensures code in Foreground && ApplyCode(st, code) == st.(fg := Some(Foreground[code]))
  {
    ForegroundTableShape();
  }

  /** `0;32;1`: the leading reset does not cancel the codes after it in the same sequence. */
  lemma ResetThenSetExample(st: Style)
    ensures Fold(st, [0, 32, 1]) == Style(Some("#4e9a06"), None, true, false, false, false)
  {
    assert [0, 32, 1][1..] == [32, 1];
    assert [32, 1][1..] == [1];
    assert [1][1..] == [];
  }
}

=== FILE: text_pass.dfy ===
/**
 A single left-to-right, non-overlapping rewrite pass over a string, the way
 `String.prototype.replace` with a global regular expression works. The three
 regular expressions of the normalizer and the escape-sequence recognizer of
 the emitter are each a `Pattern`; `Matches` states declaratively which
 strings are whole matches of a pattern, `MatchLen` is the scanner that finds
 the match at the front of a string, and `Apply` is the pass itself.

 The specification of a pass is a tiling of the input into pieces: every
 piece is either a whole match (`Hit`) or a single character kept as is
 (`Keep`) at a place where no match starts. `ApplyIsLeftmostRewrite` shows
 that `Apply` outputs exactly the kept characters and the replacements of the
 hits, in order, for every such tiling; `TilingIsLeftmost` shows one exists and
 `TilingIsUnique` that there is only one.
 */
module TextPass {
  import opened Seqs

  /** The escape control character, U+001B. */
  const ESC: char := 27 as char

  /** Final bytes of the control sequences removed by the two stripping passes. */
  datatype FinalSet = CursorFinals | ModeFinals

  datatype Pattern =
    | EscapedIntroducer                 // the literal text `#x1B[` or `#x1b[`
    | ControlSequence(finals: FinalSet) // ESC `[`, digits and semicolons, one final byte
    | SgrSequence                       // ESC `[`, anything up to and including the first `m`

  predicate IsParamChar(c: char) {
    '0' <= c <= '9' || c == ';'
  }

  predicate IsFinal(f: FinalSet, c: char) {
    match f
    case CursorFinals =>
      ('A' <= c <= 'H') || c == 'J' || c == 'K' || c == 'S' || c == 'T'
      || c == 'f' || c == 'n' || c == 's' || c == 'u'
    case ModeFinals => c == 'l' || c == 'h'
  }

  /** `t` is, in its entirety, one match of `p`. */
  predicate Matches(p: Pattern, t: seq<char>) {
    match p
    case EscapedIntroducer => t == "#x1B[" || t == "#x1b["
    case ControlSequence(f) =>
      && |t| >= 3 && t[0] == ESC && t[1] == '['
      && (forall k :: 2 <= k < |t| - 1 ==> IsParamChar(t[k]))
      && IsFinal(f, t[|t| - 1])
    case SgrSequence =>
      && |t| >= 3 && t[0] == ESC && t[1] == '['
      && t[|t| - 1] == 'm'
      && (forall k :: 2 <= k < |t| - 1 ==> t[k] != 'm')
  }

  /** Some prefix of `s` is a match of `p`. */
  ghost predicate StartsWithMatch(p: Pattern, s: seq<char>) {
    exists n :: 0 <= n <= |s| && Matches(p, s[..n])
  }

  /** What a match of `p` is replaced by. */
  function Replacement(p: Pattern): seq<char> {
    if p == EscapedIntroducer then [ESC, '['] else []
  }

  /** Length of the longest prefix of `u` made of digits and semicolons. */
  function ParamRun(u: seq<char>): (n: nat)
    ensures n <= |u|
    ensures forall k :: 0 <= k < n ==> IsParamChar(u[k])
    ensures n < |u| ==> !IsParamChar(u[n])
  {
    if u == [] || !IsParamChar(u[0]) then 0 else 1 + ParamRun(u[1..])
  }

  /** Index of the first `m` in `u`, or `|u|` when there is none. */
  function IndexOfM(u: seq<char>): (n: nat)
    ensures n <= |u|
    ensures forall k :: 0 <= k < n ==> u[k] != 'm'
    ensures n < |u| ==> u[n] == 'm'
  {
    if u == [] || u[0] == 'm' then 0 else 1 + IndexOfM(u[1..])
  }

  lemma FinalIsNotParam(f: FinalSet, c: char)
    requires IsFinal(f, c)
    ensures !IsParamChar(c)
  {
  }

  /**
   The length of the match of `p` at the front of `s`, or 0 when none starts
   there. A match is never empty, and at most one prefix of `s` matches.
   */
  function MatchLen(p: Pattern, s: seq<char>): (n: nat)
    ensures n <= |s|
    ensures n > 0 ==> Matches(p, s[..n])
    ensures forall k :: 0 <= k <= |s| && Matches(p, s[..k]) ==> k == n
  {
    match p
    case EscapedIntroducer =>
      if |s| >= 5 && Matches(p, s[..5]) then 5 else 0
    case ControlSequence(f) =>
      if |s| >= 2 && s[0] == ESC && s[1] == '[' then
        var k := 2 + ParamRun(s[2..]);
        if k < |s| && IsFinal(f, s[k]) then
          ShiftedRun(s, k);
          k + 1
        else
          ControlUniqueness(f, s, k);
          0
      else 0
    case SgrSequence =>
      if |s| >= 2 && s[0] == ESC && s[1] == '[' then
        var k := 2 + IndexOfM(s[2..]);
        if k < |s| then
          ShiftedRun(s, k);
          k + 1
        else
          0
      else 0
  }

  /** Facts about `s[2..]` restated as facts about `s`. */
  lemma ShiftedRun(s: seq<char>, k: nat)
    requires 2 <= k <= |s|
    ensures (forall i :: 0 <= i < k - 2 ==> IsParamChar(s[2..][i])) ==>
              forall i :: 2 <= i < k ==> IsParamChar(s[i])
    ensures (forall i :: 0 <= i < k - 2 ==> s[2..][i] != 'm') ==>
              forall i :: 2 <= i < k ==> s[i] != 'm'
  {
    assert forall i :: 2 <= i < k ==> s[i] == s[2..][i - 2];
  }

  /** A control sequence at the front of `s` must end right after the parameter run. */
  lemma ControlUniqueness(f: FinalSet, s: seq<char>, k: nat)
    requires |s| >= 2 && s[0] == ESC && s[1] == '['
    requires k == 2 + ParamRun(s[2..])
    ensures forall n :: 0 <= n <= |s| && Matches(ControlSequence(f), s[..n]) ==>
              n == k + 1 && k < |s| && IsFinal(f, s[k])
  {
    forall n | 0 <= n <= |s| && Matches(ControlSequence(f), s[..n])
      ensures n == k + 1 && k < |s| && IsFinal(f, s[k])
    {
      var t := s[..n];
      FinalIsNotParam(f, t[n - 1]);
      assert s[2..][n - 3] == s[n - 1];
      if k < |s| {
        assert s[2..][k - 2] == s[k];
      }
    }
  }

  /** What an SGR match at the front of `s` looks like, stated on `s` itself. */
  lemma SgrMatchShape(s: seq<char>)
    ensures var n := MatchLen(SgrSequence, s);
      n > 0 ==> && 3 <= n <= |s| && s[0] == ESC && s[1] == '[' && s[n - 1] == 'm'
                && forall k :: 2 <= k < n - 1 ==> s[k] != 'm'
  {
    var n := MatchLen(SgrSequence, s);
    if n > 0 {
      assert forall k :: 0 <= k < n ==> s[..n][k] == s[k];
    }
  }

  /** ESC `[`, a stretch without `m`, then `m`: the scanner reports exactly that length. */
  lemma SgrMatchAt(s: seq<char>, n: nat)
    requires 3 <= n <= |s| && s[0] == ESC && s[1] == '[' && s[n - 1] == 'm'
    requires forall k :: 2 <= k < n - 1 ==> s[k] != 'm'
    ensures MatchLen(SgrSequence, s) == n
  {
    assert forall k :: 0 <= k < n ==> s[..n][k] == s[k];
    assert Matches(SgrSequence, s[..n]);
  }

  /** The rewrite pass: replace every match, scanning left to right, never overlapping. */
  function Apply(p: Pattern, s: seq<char>): (r: seq<char>)
    ensures |r| <= |s|
    decreases |s|
  {
    if s == [] then []
    else
      var n := MatchLen(p, s);
      if n > 0 then Replacement(p) + Apply(p, s[n..])
      else [s[0]] + Apply(p, s[1..])
  }

  /** A piece of a tiling: a whole match, or one character kept as is. */
  datatype Piece = Hit(text: seq<char>) | Keep(c: char)

  function PieceText(q: Piece): seq<char> {
    match q
    case Hit(t) => t
    case Keep(c) => [c]
  }

  /** The input a tiling covers. */
  function Joined(ps: seq<Piece>): seq<char> {
    if ps == [] then [] else PieceText(ps[0]) + Joined(ps[1..])
  }

  /** The output a tiling stands for: hits replaced, kept characters unchanged. */
  function Output(p: Pattern, ps: seq<Piece>): seq<char> {
    if ps == [] then []
    else
      (match ps[0] case Hit(_) => Replacement(p) case Keep(c) => [c])
      + Output(p, ps[1..])
  }

  /**
   Every hit is a whole match, and every kept character stands where no
   match of `p` starts in the rest of the input.
   */
  ghost predicate LeftmostTiling(p: Pattern, ps: seq<Piece>) {
    forall k :: 0 <= k < |ps| ==>
      (ps[k].Hit? ==> Matches(p, ps[k].text))
      && (ps[k].Keep? ==> !StartsWithMatch(p, Joined(ps[k..])))
  }

  lemma LeftmostTilingTail(p: Pattern, ps: seq<Piece>)
    requires ps != [] && LeftmostTiling(p, ps)
    ensures LeftmostTiling(p, ps[1..])
  {
    forall k | 0 <= k < |ps| - 1
      ensures ps[1..][k..] == ps[k + 1..]
    {
    }
  }

  /** A match starts at the front of `s` exactly when the scanner reports a positive length. */
  lemma MatchLenFindsMatch(p: Pattern, s: seq<char>)
    ensures MatchLen(p, s) > 0 <==> StartsWithMatch(p, s)
  {
    var n := MatchLen(p, s);
    if n > 0 {
      assert Matches(p, s[..n]);
    } else {
      assert !Matches(p, s[..0]);
    }
  }

  /** The first piece of a leftmost tiling is the scanner's verdict on the whole input. */
  lemma FirstPiece(p: Pattern, ps: seq<Piece>)
    requires ps != [] && LeftmostTiling(p, ps)
    ensures var s := Joined(ps); var n := MatchLen(p, s);
      && (ps[0].Hit? ==> n == |ps[0].text| && n > 0 && s[..n] == ps[0].text && s[n..] == Joined(ps[1..]))
      && (ps[0].Keep? ==> n == 0 && s[0] == ps[0].c && s[1..] == Joined(ps[1..]))
  {
    var s := Joined(ps);
    MatchLenFindsMatch(p, s);
    assert ps[0..] == ps;
    match ps[0]
    case Hit(t) =>
      assert Matches(p, t);
      assert s[..|t|] == t;
      assert s[|t|..] == Joined(ps[1..]);
    case Keep(c) =>
      assert s[1..] == Joined(ps[1..]);
  }

  /** Only the empty tiling covers the empty input. */
  lemma NonEmptyTiling(p: Pattern, ps: seq<Piece>)
    requires LeftmostTiling(p, ps)
    ensures Joined(ps) == [] <==> ps == []
  {
    if ps != [] {
      FirstPiece(p, ps);
    }
  }

  /** `Apply` computes the output of every leftmost tiling of its input. */
  lemma {:induction false} ApplyIsLeftmostRewrite(p: Pattern, ps: seq<Piece>)
    requires LeftmostTiling(p, ps)
    ensures Apply(p, Joined(ps)) == Output(p, ps)
  {
    if ps != [] {
      FirstPiece(p, ps);
      LeftmostTilingTail(p, ps);
      ApplyIsLeftmostRewrite(p, ps[1..]);
    }
  }

  /** The leftmost tiling of `s`: the witness that one always exists. */
  function Tiling(p: Pattern, s: seq<char>): seq<Piece>
    decreases |s|
  {
    if s == [] then []
    else
      var n := MatchLen(p, s);
      if n > 0 then [Hit(s[..n])] + Tiling(p, s[n..])
      else [Keep(s[0])] + Tiling(p, s[1..])
  }

  /** `Tiling` covers exactly its input and is leftmost: a leftmost tiling always exists. */
  lemma {:induction false} TilingIsLeftmost(p: Pattern, s: seq<char>)
    ensures Joined(Tiling(p, s)) == s
    ensures LeftmostTiling(p, Tiling(p, s))
    decreases |s|
  {
    if s != [] {
      var n := MatchLen(p, s);
      if n > 0 {
        Rejoin(s, n);
        TilingIsLeftmost(p, s[n..]);
        ConsPiece(p, Hit(s[..n]), Tiling(p, s[n..]));
      } else {
        Rejoin(s, 1);
        TilingIsLeftmost(p, s[1..]);
        MatchLenFindsMatch(p, s);
        ConsPiece(p, Keep(s[0]), Tiling(p, s[1..]));
      }
    }
  }

  /** A leftmost tiling extended at the front by a piece that is leftmost there. */
  lemma ConsPiece(p: Pattern, q: Piece, rest: seq<Piece>)
    requires LeftmostTiling(p, rest)
    requires q.Hit? ==> Matches(p, q.text)
    requires q.Keep? ==> !StartsWithMatch(p, [q.c] + Joined(rest))
    ensures Joined([q] + rest) == PieceText(q) + Joined(rest)
    ensures LeftmostTiling(p, [q] + rest)
  {
    var ps := [q] + rest;
    assert ps[1..] == rest;
    assert ps[0..] == ps;
    forall k | 1 <= k < |ps|
      ensures ps[k..] == rest[k - 1..]
    {
    }
  }

  /** There is only one leftmost tiling of a given input. */
  lemma {:induction false} TilingIsUnique(p: Pattern, ps: seq<Piece>, qs: seq<Piece>)
    requires LeftmostTiling(p, ps) && LeftmostTiling(p, qs)
    requires Joined(ps) == Joined(qs)
    ensures ps == qs
  {
    NonEmptyTiling(p, ps);
    NonEmptyTiling(p, qs);
    if ps != [] && qs != [] {
      FirstPiece(p, ps);
      FirstPiece(p, qs);
      assert ps[0] == qs[0];
      LeftmostTilingTail(p, ps);
      LeftmostTilingTail(p, qs);
      TilingIsUnique(p, ps[1..], qs[1..]);
    }
  }

  /** A pass over a string in which no match starts anywhere changes nothing. */
  lemma {:induction false} ApplyWithoutMatches(p: Pattern, s: seq<char>)
    requires forall i :: 0 <= i < |s| ==> MatchLen(p, s[i..]) == 0
    ensures Apply(p, s) == s
    decreases |s|
  {
    if s != [] {
      assert s[0..] == s;
      assert forall i :: 0 <= i < |s| - 1 ==> s[1..][i..] == s[i + 1..];
      ApplyWithoutMatches(p, s[1..]);
    }
  }
}
